=== FILE: README.md ===
# parks.js in Dafny

A model of the two pieces of logic in `parks.js`, a Leaflet map of
second-hand and organic shops and parks.

**The OpenStreetMap feature builder (`L.OSM`).**
- An XML document is given as already extracted records: changesets, nodes, ways with their `nd` references, relations with typed members, and `tag` children.
- These records are turned into features. `getTags` and `getNodes` behave like object assignment: the last write to a key wins.
- Way slots are resolved against the id → node table. An unknown reference gives an absent slot (`None`).
- `buildFeatures` returns the changesets followed by the ways.
- `isWayArea` classifies a way as an area or a line.
- The geometry step of `addData` drops an area's closing point, keeps every point of a line, and throws on an absent slot.

**The Overpass request engine (`L.OverPassLayer`).**
- `_view2BBoxes` splits the view into zoom-14 tiles, x outer and y inner.
- `onMoveEnd` does nothing below `minzoom`. Otherwise it skips every tile whose `(west, north)` key is already in the ledger `_requested`, and marks the key before the request is sent.
- `onMoveEnd` also counts the batch: `beforeRequest` fires once, before the first request. `afterRequest` fires when the number of completed responses reaches `queryCount`.
- The response callback records element ids in `_ids`. At the first id it has already seen, it returns from the whole response.
- `onRemove` empties the ledger and `_ids`.
- The `L.Control.MinZoomIndicator` registry comes from its second, effective definition. `_addLayer` records a zoom, defaulting to 14. `_removeLayer` nulls the entry. `_getMinZoomLevel` returns the larger of -1 and every non-null entry.

Modules:
- `Wrappers`: `Option` and `Result`.
- `OsmData`: records, features, the scans, `buildFeatures` and `isWayArea`.
- `OsmRender`: `addData`.
- `Tiles`: tile arithmetic and enumeration.
- `MinZoom`: the indicator registry.
- `OverPass`: ledger, batch counters, reducer and layer events.

Behaviour of the code worth knowing:
- **A view exactly one tile wide.** `long2tile` of the east edge is the index of the next column, so such a view covers two columns (`Tiles.TileWideViewSpansTwoColumns`).
- **Failed responses.** A non-success status, a body that does not parse, or a callback that throws is never counted, and nothing else counts it in their place (`OverPass.OnLoad`). `afterRequest` fires only when the count of completed responses reaches `queryCount` (`OverPass.BatchAccounting`). Since each request has one `onload`, a batch with a failed response then never fires it; the model does not encode that pairing of responses with requests.
- **Unresolved end slots.** A way whose end slots are both unresolved, or which has no `nd` at all, compares its ends as `undefined == undefined` and counts as closed (`OsmData.BuiltWayClosed`, `OsmData.DanglingEndsMakeArea`).
- **No recovery.** The builder never drops an entity. An unresolved slot makes `addData` throw, which ends the whole call (`OsmRender.DocumentRendersIff`).
- **Tile boxes are normalised.** `L.LatLngBounds` sorts its two corners, so a box's north edge is the larger of its two rounded latitudes, whichever the projection yields for `y` (`Tiles.TileBoxCorners`).

## Model

| member | source | states |
|---|---|---|
| OsmData.LastWinsKeys | parks.js:176-178 | after assigning a sequence of key/value pairs to an object, a key is present iff some pair has it |
| OsmData.LastWinsValue | parks.js:176-178 | a key holds the value of the last pair that writes it |
| OsmData.GetTags | parks.js:172-181 | the tag map has exactly the keys of the `tag` children, each with the value of the last tag carrying that key |
| OsmData.GetNodes | parks.js:102-119 | the node table has exactly the declared ids; an id maps to the node built from the last element with that id, and every entry carries its own key as id |
| OsmData.ResolveMeaning | parks.js:135-137 | looking a reference up in the table gives a node iff the document declares that id, namely the node built from the last element with it |
| OsmData.WayResolution | parks.js:121-143 | a built way has the element's id and one slot per `nd` in order, each slot resolved as its reference means in the document |
| OsmData.RelationResolution | parks.js:145-170 | a relation member slot is the looked-up node (undefined if unknown) when its type is `node`, and `null` for any other type |
| OsmData.GetChangesets | parks.js:83-100 | one changeset per element, in order, with the element's id and tags and its two corners as written; `OsmData.BuildFeatures` places them first |
| OsmData.GetWays | parks.js:121-143 | one way per element, in order, with the element's id and tags and one slot per `nd`, resolved iff its reference is in the table; `OsmData.WayResolution` gives each slot's meaning |
| OsmData.GetRelations | parks.js:145-170 | one relation per element, in order, with the element's id and tags and one slot per member, `null` exactly for members whose type is not `node`; `OsmData.RelationResolution` gives the node slots' meaning |
| OsmData.BuildGraph | parks.js:51-55 | the builder's pass yields every changeset, way and relation in document order, each built from its element: same id, the element's tags, references resolved against the node table `getNodes` builds |
| OsmData.BuildFeatures | parks.js:51-63 | features are all changesets in document order followed by all ways in document order, each way carrying its element's id, tags and resolved slots; nodes and relations never appear |
| OsmData.BuiltWays | parks.js:121-143 | every way `getWays` returns is built from its element: id, tags, and one resolved slot per `nd` |
| OsmData.IndexOf | parks.js:71 | `indexOf` is -1 exactly when the key is absent, and otherwise is the first index holding it |
| OsmData.IsWayArea | parks.js:65-77 | a way is an area iff its first and last slots are equal and some tag key is one of the area tags |
| OsmData.BuiltWayClosed | parks.js:65-68 | a built way's end slots are equal iff it has no `nd`, or its end references are the same id, or both name undeclared ids |
| OsmData.EndsClosed | parks.js:66 | end slots built against a table of self-keyed nodes are equal iff the way is empty or its end references resolve alike |
| OsmData.SameResolution | parks.js:136 | two references resolve to the same slot iff they are equal or both missing from the table |
| OsmData.DeclaredInTable | parks.js:102-119 | an id is in the node table iff some node element declares it |
| OsmData.DanglingEndsMakeArea | parks.js:65-77 | a way `1 → 2` tagged `leisure=park`, where neither node is declared, is classified as an area |
| OsmRender.PointList | parks.js:32-36 | the point list has one point per slot, in order, when every slot is resolved; otherwise reading fails at the first unresolved slot |
| OsmRender.WayLayer | parks.js:32-43 | a way's layer fails, at its first unresolved slot, iff some slot is unresolved; otherwise it is a polygon iff the way is an area, and a line has one point per slot; `OsmRender.WayGeometry` pins the polygon's points |
| OsmRender.FeatureLayer | parks.js:24-45 | a changeset gives a rectangle and a node a circle marker; a relation, having no `nodes`, always throws; a way throws iff a slot is unresolved, naming that slot |
| OsmRender.AddFeatures | parks.js:24-48 | one layer per feature in order; on a throw, exactly the layers of the features before the failing one are added |
| OsmRender.WayGeometry | parks.js:32-43 | an area becomes a polygon without its last point, which repeats the first; a line keeps all `nodes.length` points |
| OsmRender.AddDocument | parks.js:19-49 | for documents whose coordinates parse, `addData` on a document completes iff every `nd` reference is declared; when it throws, it is at a way's unresolved slot, after every changeset |
| OsmRender.DocumentRendersIff | parks.js:19-49 | for documents whose coordinates parse, adding a built document completes without throwing iff every `nd` reference of every way names a declared node |
| OsmRender.WayRenders | parks.js:24-43 | the feature after the changesets at offset `i` is way `i`, and its layer throws exactly when its point list does, at the same slot |
| OsmRender.SlotDeclared | parks.js:135-136 | a built way's slot is resolved exactly when its reference is declared |
| Tiles.Long2Tile | parks.js:355 | the column index whose west edge lies at or west of the longitude and whose east edge lies east of it; `Tiles.LongitudeRoundTrip` is its inverse law |
| Tiles.Tile2Long | parks.js:359-361 | column `x`'s west edge lies `x` tile widths east of -180, within [-180, 180] for the columns of the world |
| Tiles.Round6 | parks.js:381-384 | rounding to six decimals moves a value by at most half a millionth and yields a whole number of millionths |
| Tiles.TileBox | parks.js:381-388 | a tile's box has south ≤ north, and its west and east edges are its column's and the next column's rounded west edges; `Tiles.TileBoxCorners` gives its north edge |
| Tiles.Column | parks.js:380 | the inner loop visits rows `y..bidx` of column `x`, the k-th being `(x, y+k)` |
| Tiles.Columns | parks.js:379-380 | the outer loop visits `width * height` tiles, `(x+i, tidx+j)` at position `i*height + j` |
| Tiles.ColumnsTiles | parks.js:379-380 | every visited tile lies in the index rectangle and none is visited twice |
| Tiles.BoundsSorted | parks.js:388 | a `LatLngBounds` built from two corners has south ≤ north and west ≤ east, each pair being the two given values |
| Tiles.TileBoxCorners | parks.js:381-388 | a tile box's west edge is its column's rounded west edge and its north edge the larger rounded latitude of its row, which is `top` when the projection puts row `y` north of row `y + 1` |
| Tiles.View2BBoxes | parks.js:366-393 | exactly one box per tile of `[lidx..ridx] x [tidx..bidx]`, x outer and y inner; none when either range is empty |
| Tiles.LongitudeRoundTrip | parks.js:355-361 | the column of a column's west edge is that column |
| Tiles.TileWideViewSpansTwoColumns | parks.js:370-379 | a view whose edges are exactly one column's edges spans that column and the next |
| Tiles.MathRoundGap | parks.js:381 | `Math.round` keeps values at least one apart strictly ordered |
| Tiles.WestEdgesDistinct | parks.js:381 | the rounded west edges of different columns are strictly ordered, hence different |
| Tiles.TileKeysDistinct | parks.js:381-388 | two different tiles whose rows have different rounded north edges get different ledger keys |
| Tiles.EnumerationKeysDistinct | parks.js:366-393 | when the rows' rounded north edges differ, the boxes of one view have pairwise different ledger keys |
| MinZoom.AddLayer | parks.js:533-540 | registering a layer records its `minzoom`, or 14 when that option is falsy (0 included), and leaves every other entry alone |
| MinZoom.RemoveLayer | parks.js:545-548 | removing a layer keeps its key with a `null` value and leaves every other entry alone |
| MinZoom.GetMinZoomLevel | parks.js:550-558 | the result is at least -1 and every non-null entry, and is -1 or one of the entries |
| MinZoom.MinZoomLevelUnique | parks.js:550-558 | that description admits exactly one level per registry |
| MinZoom.AddedLayerBoundsLevel | parks.js:533-558 | after a layer is added, the level is at least the zoom recorded for it |
| MinZoom.RemovedLayerLevel | parks.js:545-558 | after a layer is removed, the level is -1 iff no other registered layer has a non-negative zoom |
| OverPass.FreshTilesMeaning | parks.js:422-433 | the requested boxes come from the batch and not from the ledger, no two share a key, and their keys are the batch's keys the ledger lacked |
| OverPass.FreshTilesCons | parks.js:426-433 | the first box is requested iff its key is unmarked, and the rest are decided against the ledger with that key marked |
| OverPass.PlanStep | parks.js:422-442 | one iteration marks the box's key, sends one request exactly when the key was new, keeps earlier requests in place, and either sends or counts `queryCount` down; `OverPass.StepMeaning` relates it to the reference |
| OverPass.PlanLoop | parks.js:422-442 | the loop only adds to the ledger and the requests, keeps earlier requests in place, and for every box either sends a request or counts `queryCount` down; `OverPass.PlanLoopMeaning` gives the full result |
| OverPass.PlanLoopMeaning | parks.js:418-442 | from any loop state, the loop marks every key of the remaining boxes, appends the fresh ones, decrements `queryCount` once per skipped box, and calls `beforeRequest` at most once |
| OverPass.StepMeaning | parks.js:422-442 | one iteration, skip or send, agrees with the reference definition applied to the rest of the batch |
| OverPass.SendMeaning | parks.js:430-442 | sending a box marks its key, appends it to the requests, and calls `beforeRequest` only if it has not been called yet |
| OverPass.PlanRequests | parks.js:418-442 | the ledger gains every key of the view; exactly the fresh boxes are requested, in order; `queryCount` ends as the number of requests; `beforeRequest` fires once iff something is requested |
| OverPass.PlanTwiceRequestsNothing | parks.js:426-429 | planning the same boxes again against the resulting ledger requests nothing, counts nothing and fires nothing |
| OverPass.AllFreshRequested | parks.js:422-433 | boxes with pairwise different keys, none of them marked, are all requested |
| OverPass.Reduce | parks.js:289-310 | the callback renders at most one marker per element, and at most one element throws; `OverPass.ReduceMeaning` gives its full meaning |
| OverPass.ReduceMeaning | parks.js:289-310 | the callback renders the longest prefix of unseen, placeable elements in order; it returns at a seen id or throws at an unseen element without a position; `_ids` gains exactly the ids it reached |
| OverPass.MarkersRecorded | parks.js:293-294 | `_ids` only grows; every rendered id is recorded and was new; no id is rendered twice in one response |
| OverPass.RenderedOnce | parks.js:293-294 | no id is rendered both from one response and from the response handled right after it |
| OverPass.LoadRendersFresh | parks.js:448-451 | one `onload` renders only ids the layer had not seen, each once, and records them all |
| OverPass.DeliverRendersOnce | parks.js:289-310 | over any sequence of responses, no id is rendered twice and none the layer had already seen is rendered |
| OverPass.RenderedOnceUntilRemove | parks.js:293-294 | from any session state, until `onRemove`, whatever views and responses arrive in whatever order, no id is rendered twice and none seen before is rendered |
| OverPass.OnMoveEnd | parks.js:404-466 | below `minzoom` nothing changes; otherwise the ledger gains the view's keys, the fresh tiles are requested, a batch with `queryCount` equal to the number of requests starts, and `beforeRequest` fires iff a request is sent |
| OverPass.FirstViewRequestsEveryTile | parks.js:409-433 | with an empty ledger, and provided the view's rows have different rounded north edges, every tile of the view is requested |
| OverPass.OnLoad | parks.js:448-459 | a response never touches the ledger; a successful, parsed one leaves `_ids` and the markers exactly as the callback's reduction of its elements does; it counts iff it succeeded, parsed and the callback did not throw; `afterRequest` fires iff the count reaches `queryCount`; a failed status or a body that does not parse changes nothing |
| OverPass.Deliver | parks.js:448-459 | the responses of a batch leave the ledger and `queryCount` alone, only add to `_ids`, and add at most one to the count each; `OverPass.AfterRequestOnce` gives when `afterRequest` fires |
| OverPass.AfterRequestOnce | parks.js:448-459 | over any sequence of responses to a batch, `afterRequest` fires once if the count passes `queryCount` and never otherwise |
| OverPass.BatchAccounting | parks.js:418-457 | a batch fires `afterRequest` at most once, iff it sent requests and at least that many responses completed; an empty batch fires neither callback |
| OverPass.OnAdd | parks.js:468-478 | attaching registers the layer with its recorded zoom, leaves every other registration alone, and adds no other key; it runs one `onMoveEnd`: below `minzoom` nothing, otherwise the view's keys are marked, exactly the fresh tiles are requested, a batch with `queryCount` equal to their number starts, and `beforeRequest` fires iff one is sent |
| OverPass.OnRemove | parks.js:488-502 | removing the layer empties `_requested` and `_ids`, nulls its own indicator entry, and leaves every other entry and key alone |
| OverPass.Step | parks.js:404-494 | one event never shortens the batches, requests or markers; a removal clears the layer; a response never touches the ledger or the requests; a settled view never touches `_ids` or the markers |
| OverPass.Run | parks.js:404-494 | a sequence of events never shortens the batches, requests or markers, nor lowers the callback counts |
| OverPass.StepRenders | parks.js:293-294 | one event other than removal renders only fresh ids and keeps every id seen |
| OverPass.StepLedger | parks.js:422-433 | one event adds to the ledger exactly the keys of the requests it sends, all new and pairwise different |
| OverPass.LedgerGrowsUntilRemove | parks.js:422-433 | until `onRemove`, the ledger only grows, by exactly the keys of the requests sent, and no key is requested twice |
| OverPass.RemoveResets | parks.js:493-494 | after `onRemove` the ledger and the id set are empty |

## Left out

- XML DOM traversal (`getElementsByTagName`, `getAttribute`): the document is given as extracted record sequences. A missing attribute (`null`) is not modelled.
- Numeric conversion of coordinates. `L.latLng` parses attribute text, and `NaN` handling is Leaflet's. Coordinates stay strings.
- `XMLHttpRequest`, URL building, `toOverpassBBoxString` number formatting, `JSON.parse`, `console.debug` and the `debug` option are I/O or foreign calls. A response arrives as a status and an already parsed body, with `None` when parsing throws.
- Floating point:
  - Longitude arithmetic and `Math.round` are modelled over the reals.
  - `lat2tile` and `tile2lat` use tan/log/exp/atan. They are parameters (`LatProjection`).
  - That different rows have different rounded north edges is a hypothesis (`NorthEdgesDistinct`), not a proved fact.
- Tiles.EnumerationKeysDistinct: it assumes distinct rounded north edges, because the latitude functions are not modelled.
- OverPass.FirstViewRequestsEveryTile: it assumes the same hypothesis. Rows whose rounded north edges coincide share a ledger key, and then only the first of them is requested.
- OsmRender.DocumentRendersIff: it holds only for documents whose coordinates parse. `L.latLng` and `L.latLngBounds` throw on a non-numeric coordinate, so `buildFeatures` itself can throw on such a document even when every reference resolves.
- OsmData.GetChangesets: `L.latLngBounds` sorts a changeset's two corners, but the corners stay as written, because the coordinates are kept as text and cannot be compared as numbers.
- OsmData.IsWayArea: it compares the end slots by value. The source's `!=` compares node objects by identity. The two agree on built documents, where one id always gives the same node, but not on a feature array passed to `addData` whose ends are two distinct equal node objects.
- OsmData.GetNodes: the node table is a plain object. A reference such as `constructor` or `toString` finds an inherited `Object.prototype` member rather than undefined, and an element with id `__proto__` adds no entry. The model treats every id as an ordinary key.
- OsmData.GetTags: the same holds for tag maps. A tag with key `__proto__` adds no entry, and the `for … in` of `isWayArea` also visits nothing inherited. The model treats every key as ordinary.
- The ledger is JavaScript's nested object `_requested[x][y]` with number-to-string keys. It is modelled as a set of `(west, north)` pairs, so string coercion of keys (`-0` versus `0`, and keys inherited from the prototype) is not modelled.
- The same goes for `_ids`, a set of numeric ids.
- Response elements always carry numeric coordinates. An element whose `lat`/`lon` are missing, which makes `L.LatLng` throw, is not modelled; only a non-node without `center` throws in the model.
- Leaflet layer construction is reduced to geometry: styles, popups, `_poiInfo`, `addBBox`, `addTo`, `addLayer` and `bindPopup`.
- The `_updateBox` DOM text and display logic is user interface.
- The registry ids (`_leaflet_id`) are integers; the JavaScript object would coerce them to string keys.
- Map event wiring (`map.on`/`map.off('moveend')`) and `onAdd`'s `(BBOX)` test are not modelled. `OverPass.OnAdd` only composes registration with one `onMoveEnd`.
- Asynchronous completion order is not modelled: responses are delivered one at a time as an event sequence.
- `getData` is left out, because `_data` is never assigned.
- The first `L.Control.MinZoomIndicator` definition (parks.js:184-275) is overwritten by the second and is not modelled.
- The `L.OSM.DataLayer` constructor's handling of its initial XML is not modelled. `addData` is modelled on a document (`OsmRender.AddDocument`) and on a feature array (`OsmRender.AddFeatures`).

=== FILE: MinZoom.dfy ===
/**
 * The registry behind `L.Control.MinZoomIndicator` (its second, effective
 * definition): a map from layer id to that layer's minimum zoom, where a
 * removed layer keeps its key with a `null` value, and the effective minimum
 * zoom is the larger of -1 and every non-null entry. The DOM
 * container and its text are not modelled.
 */
module MinZoom {
  import opened Wrappers

  /** `_leaflet_id`. */
  type LayerId = int

  /** `_layers`: `None` stands for the `null` written by `_removeLayer`. */
  type Registry = map<LayerId, Option<int>>

  /** The zoom `_addLayer` records: the layer's `minzoom`, or 14 when that
      option is falsy (`0` included). */
  function RecordedZoom(minzoom: int): int {
    if minzoom != 0 then minzoom else 14
  }

  /** `_addLayer`. */
  function AddLayer(reg: Registry, id: LayerId, minzoom: int): (r: Registry)
    ensures r.Keys == reg.Keys + {id}
    ensures r[id] == Some(RecordedZoom(minzoom)) && RecordedZoom(minzoom) != 0
    ensures forall k :: k in reg && k != id ==> r[k] == reg[k]
  {
    reg[id := Some(RecordedZoom(minzoom))]
  }

  /** `_removeLayer`: the key stays, its value becomes `null`. */
  function RemoveLayer(reg: Registry, id: LayerId): (r: Registry)
    ensures r.Keys == reg.Keys + {id}
    ensures r[id] == None
    ensures forall k :: k in reg && k != id ==> r[k] == reg[k]
  {
    reg[id := None]
  }

  /** `level` is what `_getMinZoomLevel` returns for `reg`: at least -1, no
      smaller than any non-null entry, and either -1 or one of the entries. */
  ghost predicate IsMinZoomLevel(reg: Registry, level: int) {
    && level >= -1
    && (forall k :: k in reg && reg[k].Some? ==> reg[k].value <= level)
    && (level == -1 || exists k :: k in reg && reg[k] == Some(level))
  }

  /** `_getMinZoomLevel`: the loop over the registry's keys. */
  method GetMinZoomLevel(reg: Registry) returns (level: int)
    ensures IsMinZoomLevel(reg, level)
  {
    level := -1;
    var todo := reg.Keys;
    while todo != {}
      invariant todo <= reg.Keys
      invariant level >= -1
      invariant forall k :: k in reg && k !in todo && reg[k].Some? ==> reg[k].value <= level
      invariant level == -1 || exists k :: k in reg && reg[k] == Some(level)
      decreases todo
    {
      Inhabited(todo);
      var key :| key in todo;
      if reg[key].Some? && reg[key].value > level {
        level := reg[key].value;
      }
      todo := todo - {key};
    }
  }

  /** A non-empty set has an element. */
  lemma Inhabited(s: set<LayerId>)
    requires s != {}
    ensures exists k :: k in s
  {
    if forall k :: k !in s {
      assert false;
    }
  }

  /** The level is determined by the registry. */
  lemma MinZoomLevelUnique(reg: Registry, a: int, b: int)
    requires IsMinZoomLevel(reg, a) && IsMinZoomLevel(reg, b)
    ensures a == b
  {
    if a != -1 {
      var k :| k in reg && reg[k] == Some(a);
    }
    if b != -1 {
      var k :| k in reg && reg[k] == Some(b);
    }
  }

  /** After a layer is added, the level is at least the zoom recorded for it. */
  lemma AddedLayerBoundsLevel(reg: Registry, id: LayerId, minzoom: int, level: int)
    requires IsMinZoomLevel(AddLayer(reg, id, minzoom), level)
    ensures level >= RecordedZoom(minzoom)
  {
    assert AddLayer(reg, id, minzoom)[id] == Some(RecordedZoom(minzoom));
  }

  /** Removing a layer reports "no layer" (-1) exactly when no other layer
      with a non-negative zoom is still registered. */
  lemma RemovedLayerLevel(reg: Registry, id: LayerId, level: int)
    requires IsMinZoomLevel(RemoveLayer(reg, id), level)
    ensures level == -1 <==> forall k :: k in reg && k != id && reg[k].Some? ==> reg[k].value <= -1
  {
    var r := RemoveLayer(reg, id);
    if level != -1 {
      var k :| k in r && r[k] == Some(level);
      assert k != id && reg[k] == Some(level);
    }
  }
}

=== FILE: OsmData.dfy ===
/**
 * The feature graph builder of `L.OSM`: pre-extracted XML records
 * (changesets, nodes, ways with `nd` references, relations with typed
 * members, `tag` children) are turned into features. Node references are
 * resolved against an id -> node table; an unknown reference becomes an
 * absent slot. Attribute values are kept as the text the document holds:
 * converting them to numbers is Leaflet's business, not this module's.
 */
module OsmData {
  import opened Wrappers

  // ---------------------------------------------------------------------
  // Input records: what the DOM traversal extracts from the document.
  // ---------------------------------------------------------------------

  /** A `<tag k=".." v=".."/>` child. */
  datatype TagElem = TagElem(k: string, v: string)

  /** A `<changeset>` element with its four bound attributes. */
  datatype ChangesetElem = ChangesetElem(id: string, minLat: string, minLon: string,
                                         maxLat: string, maxLon: string, tags: seq<TagElem>)

  /** A `<node>` element. */
  datatype NodeElem = NodeElem(id: string, lat: string, lon: string, tags: seq<TagElem>)

  /** A `<way>` element: the `ref` attributes of its `nd` children, in order. */
  datatype WayElem = WayElem(id: string, nds: seq<string>, tags: seq<TagElem>)

  /** A `<member type=".." ref=".."/>` child of a relation. */
  datatype MemberElem = MemberElem(kind: string, ref: string)

  /** A `<relation>` element. */
  datatype RelationElem = RelationElem(id: string, members: seq<MemberElem>, tags: seq<TagElem>)

  /** The elements of one document, each kind in document order. */
  datatype Document = Document(changesets: seq<ChangesetElem>, nodes: seq<NodeElem>,
                               ways: seq<WayElem>, relations: seq<RelationElem>)

  // ---------------------------------------------------------------------
  // Features.
  // ---------------------------------------------------------------------

  type TagMap = map<string, string>

  datatype LatLng = LatLng(lat: string, lng: string)

  /** `L.latLngBounds([min_lat, min_lon], [max_lat, max_lon])`. */
  datatype LatLngBounds = LatLngBounds(southWest: LatLng, northEast: LatLng)

  datatype Node = Node(id: string, latLng: LatLng, tags: TagMap)

  datatype Changeset = Changeset(id: string, latLngBounds: LatLngBounds, tags: TagMap)

  /** A way: slot j is the node its j-th `nd` names, or `None` (undefined). */
  datatype Way = Way(id: string, nodes: seq<Option<Node>>, tags: TagMap)

  /** A relation member slot: a looked-up node, an undefined lookup, or the
      `null` written for way and relation members. */
  datatype MemberSlot = NodeMember(node: Node) | Unresolved | NullMember

  datatype Relation = Relation(id: string, members: seq<MemberSlot>, tags: TagMap)

  datatype Feature =
    | ChangesetFeature(changeset: Changeset)
    | NodeFeature(node: Node)
    | WayFeature(way: Way)
    | RelationFeature(relation: Relation)

  /** Everything one pass over a document produces. */
  datatype Graph = Graph(changesets: seq<Changeset>, nodes: map<string, Node>,
                         ways: seq<Way>, relations: seq<Relation>)

  /** The keys whose presence on a closed way makes it an area (default `areaTags`). */
  const DefaultAreaTags: seq<string> := ["leisure", "tourism", "landuse", "natural", "sport"]

  // ---------------------------------------------------------------------
  // Object-as-dictionary assignment: a later write to a key wins.
  // ---------------------------------------------------------------------

  /** No later pair of `pairs` has the key of pair `i`. */
  ghost predicate LastWith<K, V>(pairs: seq<(K, V)>, i: int)
    requires 0 <= i < |pairs|
  {
    forall j :: i < j < |pairs| ==> pairs[j].0 != pairs[i].0
  }

  /** Some pair of `pairs` has key `k`. */
  ghost predicate HasKey<K, V>(pairs: seq<(K, V)>, k: K) {
    exists i :: 0 <= i < |pairs| && pairs[i].0 == k
  }

  /** The object obtained by `result[k] = v` for every pair, in order. */
  function LastWins<K, V>(pairs: seq<(K, V)>): map<K, V> {
    if |pairs| == 0 then map[]
    else LastWins(pairs[..|pairs| - 1])[pairs[|pairs| - 1].0 := pairs[|pairs| - 1].1]
  }

  /** A key is present exactly when some pair carries it. */
  lemma {:induction false} LastWinsKeys<K, V>(pairs: seq<(K, V)>, k: K)
    ensures k in LastWins(pairs) <==> HasKey(pairs, k)
  {
    if |pairs| > 0 {
      var init := pairs[..|pairs| - 1];
      LastWinsKeys(init, k);
      if HasKey(init, k) {
        var i :| 0 <= i < |init| && init[i].0 == k;
        assert pairs[i] == init[i];
      }
      if HasKey(pairs, k) && k != pairs[|pairs| - 1].0 {
        var i :| 0 <= i < |pairs| && pairs[i].0 == k;
        assert init[i] == pairs[i];
      }
    }
  }

  /** The value of a key is the one written by its last pair. */
  lemma {:induction false} LastWinsValue<K, V>(pairs: seq<(K, V)>, i: int)
    requires 0 <= i < |pairs| && LastWith(pairs, i)
    ensures pairs[i].0 in LastWins(pairs) && LastWins(pairs)[pairs[i].0] == pairs[i].1
  {
    var init := pairs[..|pairs| - 1];
    if i < |init| {
      assert init[i] == pairs[i];
      assert LastWith(init, i) by {
        forall j | i < j < |init| ensures init[j].0 != init[i].0 {
          assert init[j] == pairs[j];
        }
      }
      LastWinsValue(init, i);
    }
  }

  /** `getTags`: one entry per distinct key, holding the value of the last tag with that key. */
  function GetTags(tags: seq<TagElem>): (r: TagMap)
    ensures forall k :: k in r <==> exists i :: 0 <= i < |tags| && tags[i].k == k
    ensures forall i :: 0 <= i < |tags| && (forall j :: i < j < |tags| ==> tags[j].k != tags[i].k) ==>
              tags[i].k in r && r[tags[i].k] == tags[i].v
  {
    var pairs := seq(|tags|, i requires 0 <= i < |tags| => (tags[i].k, tags[i].v));
    var r := LastWins(pairs);
    assert forall k :: k in r <==> exists i :: 0 <= i < |tags| && tags[i].k == k by {
      forall k ensures k in r <==> exists i :: 0 <= i < |tags| && tags[i].k == k {
        LastWinsKeys(pairs, k);
        if exists i :: 0 <= i < |tags| && tags[i].k == k {
          var i :| 0 <= i < |tags| && tags[i].k == k;
          assert pairs[i].0 == k;
        }
      }
    }
    assert forall i :: 0 <= i < |tags| && LastWith(pairs, i) ==> tags[i].k in r && r[tags[i].k] == tags[i].v by {
      forall i | 0 <= i < |tags| && LastWith(pairs, i) ensures tags[i].k in r && r[tags[i].k] == tags[i].v {
        LastWinsValue(pairs, i);
      }
    }
    assert forall i :: 0 <= i < |tags| && (forall j :: i < j < |tags| ==> tags[j].k != tags[i].k) ==> LastWith(pairs, i) by {
      forall i | 0 <= i < |tags| && (forall j :: i < j < |tags| ==> tags[j].k != tags[i].k) ensures LastWith(pairs, i) {
        forall j | i < j < |pairs| ensures pairs[j].0 != pairs[i].0 {
          assert tags[j].k != tags[i].k;
        }
      }
    }
    r
  }

  // ---------------------------------------------------------------------
  // The four scans.
  // ---------------------------------------------------------------------

  function ToChangeset(c: ChangesetElem): Changeset {
    Changeset(c.id, LatLngBounds(LatLng(c.minLat, c.minLon), LatLng(c.maxLat, c.maxLon)), GetTags(c.tags))
  }

  /** `getChangesets`: one changeset per element, in document order. */
  function GetChangesets(cs: seq<ChangesetElem>): (r: seq<Changeset>)
    ensures |r| == |cs|
    ensures forall i :: 0 <= i < |cs| ==> r[i].id == cs[i].id && r[i].tags == GetTags(cs[i].tags)
    ensures forall i :: 0 <= i < |cs| ==>
              r[i].latLngBounds.southWest == LatLng(cs[i].minLat, cs[i].minLon)
              && r[i].latLngBounds.northEast == LatLng(cs[i].maxLat, cs[i].maxLon)
  {
    seq(|cs|, i requires 0 <= i < |cs| => ToChangeset(cs[i]))
  }

  function ToNode(n: NodeElem): Node {
    Node(n.id, LatLng(n.lat, n.lon), GetTags(n.tags))
  }

  /** `getNodes`: the id -> node table; a later element with the same id wins. */
  function GetNodes(ns: seq<NodeElem>): (r: map<string, Node>)
    ensures forall id :: id in r <==> exists i :: 0 <= i < |ns| && ns[i].id == id
    ensures forall i :: 0 <= i < |ns| && (forall j :: i < j < |ns| ==> ns[j].id != ns[i].id) ==>
              ns[i].id in r && r[ns[i].id] == ToNode(ns[i])
    ensures forall id :: id in r ==> r[id].id == id
  {
    var pairs := seq(|ns|, i requires 0 <= i < |ns| => (ns[i].id, ToNode(ns[i])));
    var r := LastWins(pairs);
    assert forall id :: id in r <==> exists i :: 0 <= i < |ns| && ns[i].id == id by {
      forall id ensures id in r <==> exists i :: 0 <= i < |ns| && ns[i].id == id {
        LastWinsKeys(pairs, id);
        if exists i :: 0 <= i < |ns| && ns[i].id == id {
          var i :| 0 <= i < |ns| && ns[i].id == id;
          assert pairs[i].0 == id;
        }
      }
    }
    assert forall i :: 0 <= i < |ns| && LastWith(pairs, i) ==> ns[i].id in r && r[ns[i].id] == ToNode(ns[i]) by {
      forall i | 0 <= i < |ns| && LastWith(pairs, i) ensures ns[i].id in r && r[ns[i].id] == ToNode(ns[i]) {
        LastWinsValue(pairs, i);
      }
    }
    assert forall i :: 0 <= i < |ns| && (forall j :: i < j < |ns| ==> ns[j].id != ns[i].id) ==> LastWith(pairs, i) by {
      forall i | 0 <= i < |ns| && (forall j :: i < j < |ns| ==> ns[j].id != ns[i].id) ensures LastWith(pairs, i) {
        forall j | i < j < |pairs| ensures pairs[j].0 != pairs[i].0 {
          assert ns[j].id != ns[i].id;
        }
      }
    }
    assert forall id :: id in r ==> r[id].id == id by {
      forall id | id in r ensures r[id].id == id {
        LastWinsKeys(pairs, id);
        var i :| 0 <= i < |pairs| && pairs[i].0 == id;
        var last := LastIndexFrom(pairs, i);
        LastWinsValue(pairs, last);
      }
    }
    r
  }

  /** The last index at or after `i` whose key equals the key at `i`. */
  ghost function LastIndexFrom<K, V>(pairs: seq<(K, V)>, i: int): (r: int)
    requires 0 <= i < |pairs|
    ensures i <= r < |pairs| && pairs[r].0 == pairs[i].0 && LastWith(pairs, r)
    decreases |pairs| - i
  {
    if exists j :: i < j < |pairs| && pairs[j].0 == pairs[i].0 then
      var j :| i < j < |pairs| && pairs[j].0 == pairs[i].0;
      LastIndexFrom(pairs, j)
    else i
  }

  /** `nodes[ref]`: the node of that id, or undefined. */
  function Resolve(table: map<string, Node>, ref: string): Option<Node> {
    if ref in table then Some(table[ref]) else None
  }

  function ToWay(w: WayElem, table: map<string, Node>): Way {
    Way(w.id, seq(|w.nds|, j requires 0 <= j < |w.nds| => Resolve(table, w.nds[j])), GetTags(w.tags))
  }

  /** `getWays`: one way per element, in document order, each with one slot per `nd`. */
  function GetWays(ws: seq<WayElem>, table: map<string, Node>): (r: seq<Way>)
    ensures |r| == |ws|
    ensures forall i :: 0 <= i < |ws| ==>
              r[i].id == ws[i].id && r[i].tags == GetTags(ws[i].tags) && |r[i].nodes| == |ws[i].nds|
    ensures forall i, j :: 0 <= i < |ws| && 0 <= j < |ws[i].nds| ==>
              (r[i].nodes[j].Some? <==> ws[i].nds[j] in table)
  {
    seq(|ws|, i requires 0 <= i < |ws| => ToWay(ws[i], table))
  }

  /** One relation member: a `node` member is looked up, any other kind is `null`. */
  function ToMember(m: MemberElem, table: map<string, Node>): MemberSlot {
    if m.kind == "node" then
      (if m.ref in table then NodeMember(table[m.ref]) else Unresolved)
    else NullMember
  }

  function ToRelation(rel: RelationElem, table: map<string, Node>): Relation {
    Relation(rel.id, seq(|rel.members|, j requires 0 <= j < |rel.members| => ToMember(rel.members[j], table)),
             GetTags(rel.tags))
  }

  /** `getRelations`: one relation per element, in document order. */
  function GetRelations(rs: seq<RelationElem>, table: map<string, Node>): (r: seq<Relation>)
    ensures |r| == |rs|
    ensures forall i :: 0 <= i < |rs| ==>
              r[i].id == rs[i].id && r[i].tags == GetTags(rs[i].tags) && |r[i].members| == |rs[i].members|
    ensures forall i, j :: 0 <= i < |rs| && 0 <= j < |rs[i].members| ==>
              (r[i].members[j].NullMember? <==> rs[i].members[j].kind != "node")
  {
    seq(|rs|, i requires 0 <= i < |rs| => ToRelation(rs[i], table))
  }

  /** Some `<node>` element of the document has id `id`. */
  ghost predicate Declared(nodes: seq<NodeElem>, id: string) {
    exists k :: 0 <= k < |nodes| && nodes[k].id == id
  }

  /** Node element `k` is the last one with its id. */
  ghost predicate LastDeclared(nodes: seq<NodeElem>, k: int)
    requires 0 <= k < |nodes|
  {
    forall m :: k < m < |nodes| ==> nodes[m].id != nodes[k].id
  }

  /** The node a reference to `ref` resolves to, in document terms: the node
      built from the last element with id `ref`, or `None` when there is none. */
  ghost predicate ResolvesTo(nodes: seq<NodeElem>, ref: string, slot: Option<Node>) {
    && (slot.Some? <==> Declared(nodes, ref))
    && (forall k :: 0 <= k < |nodes| && nodes[k].id == ref && LastDeclared(nodes, k) ==> slot == Some(ToNode(nodes[k])))
  }

  /** `way` was built from element `w`: same id, the element's tags, one
      slot per `nd` in the same order, each resolved against the document's
      nodes. */
  ghost predicate WayBuiltFrom(way: Way, w: WayElem, nodes: seq<NodeElem>) {
    && way.id == w.id
    && way.tags == GetTags(w.tags)
    && |way.nodes| == |w.nds|
    && (forall j :: 0 <= j < |w.nds| ==> ResolvesTo(nodes, w.nds[j], way.nodes[j]))
  }

  /** `rel` was built from element `e`: same id, the element's tags, one
      slot per member; a `node` member resolves like a way slot, any other
      member is `null`. */
  ghost predicate RelationBuiltFrom(rel: Relation, e: RelationElem, nodes: seq<NodeElem>) {
    && rel.id == e.id
    && rel.tags == GetTags(e.tags)
    && |rel.members| == |e.members|
    && (forall j :: 0 <= j < |e.members| ==>
          if e.members[j].kind != "node" then rel.members[j] == NullMember
          else
            && (rel.members[j].Unresolved? <==> !Declared(nodes, e.members[j].ref))
            && (rel.members[j].NodeMember? <==> Declared(nodes, e.members[j].ref))
            && (forall k :: 0 <= k < |nodes| && nodes[k].id == e.members[j].ref && LastDeclared(nodes, k) ==>
                  rel.members[j] == NodeMember(ToNode(nodes[k]))))
  }

  /** Resolving a reference against the node table agrees with its document meaning. */
  lemma ResolveMeaning(nodes: seq<NodeElem>, ref: string)
    ensures ResolvesTo(nodes, ref, Resolve(GetNodes(nodes), ref))
  {
  }

  lemma WayResolution(nodes: seq<NodeElem>, w: WayElem)
    ensures WayBuiltFrom(ToWay(w, GetNodes(nodes)), w, nodes)
  {
    var way := ToWay(w, GetNodes(nodes));
    forall j | 0 <= j < |w.nds| ensures ResolvesTo(nodes, w.nds[j], way.nodes[j]) {
      ResolveMeaning(nodes, w.nds[j]);
    }
  }

  lemma RelationResolution(nodes: seq<NodeElem>, e: RelationElem)
    ensures RelationBuiltFrom(ToRelation(e, GetNodes(nodes)), e, nodes)
  {
    var table := GetNodes(nodes);
    var rel := ToRelation(e, table);
    forall j | 0 <= j < |e.members| ensures rel.members[j] == ToMember(e.members[j], table) {
    }
  }

  /** The resolution pass `buildFeatures` performs (its relations are then discarded). */
  function BuildGraph(doc: Document): (g: Graph)
    ensures g.nodes == GetNodes(doc.nodes)
    ensures |g.changesets| == |doc.changesets|
    ensures forall i :: 0 <= i < |doc.changesets| ==> g.changesets[i] == ToChangeset(doc.changesets[i])
    ensures |g.ways| == |doc.ways|
    ensures forall i :: 0 <= i < |doc.ways| ==> WayBuiltFrom(g.ways[i], doc.ways[i], doc.nodes)
    ensures |g.relations| == |doc.relations|
    ensures forall i :: 0 <= i < |doc.relations| ==> RelationBuiltFrom(g.relations[i], doc.relations[i], doc.nodes)
  {
    var table := GetNodes(doc.nodes);
    var g := Graph(GetChangesets(doc.changesets), table, GetWays(doc.ways, table), GetRelations(doc.relations, table));
    assert forall i :: 0 <= i < |doc.ways| ==> WayBuiltFrom(g.ways[i], doc.ways[i], doc.nodes) by {
      forall i | 0 <= i < |doc.ways| ensures WayBuiltFrom(g.ways[i], doc.ways[i], doc.nodes) {
        WayResolution(doc.nodes, doc.ways[i]);
      }
    }
    assert forall i :: 0 <= i < |doc.relations| ==> RelationBuiltFrom(g.relations[i], doc.relations[i], doc.nodes) by {
      forall i | 0 <= i < |doc.relations| ensures RelationBuiltFrom(g.relations[i], doc.relations[i], doc.nodes) {
        RelationResolution(doc.nodes, doc.relations[i]);
      }
    }
    g
  }

  /** `buildFeatures`: all changesets in document order, then all ways in
      document order; nodes and relations never appear. The relations it
      builds are discarded, so they are not built here. */
  function BuildFeatures(doc: Document): (r: seq<Feature>)
    ensures |r| == |doc.changesets| + |doc.ways|
    ensures forall i :: 0 <= i < |doc.changesets| ==> r[i] == ChangesetFeature(ToChangeset(doc.changesets[i]))
    ensures forall j :: 0 <= j < |doc.ways| ==>
              r[|doc.changesets| + j].WayFeature? && WayBuiltFrom(r[|doc.changesets| + j].way, doc.ways[j], doc.nodes)
    ensures forall j :: 0 <= j < |doc.ways| ==>
              r[|doc.changesets| + j] == WayFeature(ToWay(doc.ways[j], GetNodes(doc.nodes)))
    ensures forall f :: f in r ==> f.ChangesetFeature? || f.WayFeature?
  {
    var ways := GetWays(doc.ways, GetNodes(doc.nodes));
    BuiltWays(doc.nodes, doc.ways);
    Assemble(GetChangesets(doc.changesets), ways)
  }

  /** Every way of `getWays` is built from its element. */
  lemma BuiltWays(nodes: seq<NodeElem>, ws: seq<WayElem>)
    ensures var ways := GetWays(ws, GetNodes(nodes));
            forall j :: 0 <= j < |ws| ==> WayBuiltFrom(ways[j], ws[j], nodes)
  {
    forall j | 0 <= j < |ws| ensures WayBuiltFrom(GetWays(ws, GetNodes(nodes))[j], ws[j], nodes) {
      WayResolution(nodes, ws[j]);
    }
  }

  /** Changesets, then ways, as features. */
  function Assemble(changesets: seq<Changeset>, ways: seq<Way>): (r: seq<Feature>)
    ensures |r| == |changesets| + |ways|
    ensures forall i :: 0 <= i < |changesets| ==> r[i] == ChangesetFeature(changesets[i])
    ensures forall j :: 0 <= j < |ways| ==> r[|changesets| + j] == WayFeature(ways[j])
    ensures forall f :: f in r ==> f.ChangesetFeature? || f.WayFeature?
  {
    var cs := seq(|changesets|, i requires 0 <= i < |changesets| => ChangesetFeature(changesets[i]));
    var ws := seq(|ways|, j requires 0 <= j < |ways| => WayFeature(ways[j]));
    assert forall j :: 0 <= j < |ws| ==> (cs + ws)[|cs| + j] == ws[j];
    cs + ws
  }

  // ---------------------------------------------------------------------
  // Area classification.
  // ---------------------------------------------------------------------

  /** `Array.prototype.indexOf`: the first index holding `x`, or -1. */
  function IndexOf(s: seq<string>, x: string): (r: int)
    ensures -1 <= r < |s|
    ensures r == -1 <==> x !in s
    ensures r >= 0 ==> s[r] == x && forall j :: 0 <= j < r ==> s[j] != x
  {
    if |s| == 0 then -1
    else if s[0] == x then 0
    else
      var t := IndexOf(s[1..], x);
      if t == -1 then -1 else t + 1
  }

  /** JavaScript's `~x` on an integer in the 32-bit range. */
  function BitNot(x: int): int { -x - 1 }

  /** `nodes[i]`: an index outside the array reads as undefined. */
  function At(nodes: seq<Option<Node>>, i: int): Option<Node> {
    if 0 <= i < |nodes| then nodes[i] else None
  }

  /** `isWayArea`: first and last slots are equal and some tag key is an area tag. */
  function IsWayArea(way: Way, areaTags: seq<string>): (r: bool)
    ensures r <==> At(way.nodes, 0) == At(way.nodes, |way.nodes| - 1)
                   && exists k :: k in way.tags && k in areaTags
  {
    if At(way.nodes, 0) != At(way.nodes, |way.nodes| - 1) then false
    else exists key | key in way.tags :: BitNot(IndexOf(areaTags, key)) != 0
  }

  /** A way whose `nd` list is empty, or whose first and last references
      name the same id, or both name ids the document never declares, is
      closed: its first and last slots compare equal. */
  lemma BuiltWayClosed(nodes: seq<NodeElem>, w: WayElem)
    ensures var way := ToWay(w, GetNodes(nodes));
            At(way.nodes, 0) == At(way.nodes, |way.nodes| - 1) <==>
              (|w.nds| == 0 || w.nds[0] == w.nds[|w.nds| - 1]
               || (!Declared(nodes, w.nds[0]) && !Declared(nodes, w.nds[|w.nds| - 1])))
  {
    var table := GetNodes(nodes);
    if |w.nds| > 0 {
      DeclaredInTable(nodes, w.nds[0]);
      DeclaredInTable(nodes, w.nds[|w.nds| - 1]);
    }
    EndsClosed(w, table);
  }

  lemma DeclaredInTable(nodes: seq<NodeElem>, id: string)
    ensures id in GetNodes(nodes) <==> Declared(nodes, id)
  {
  }

  /** The end slots of a way built against `table` compare equal exactly
      when the `nd` list is empty or its end references resolve alike. */
  lemma EndsClosed(w: WayElem, table: map<string, Node>)
    requires forall id :: id in table ==> table[id].id == id
    ensures var way := ToWay(w, table);
            At(way.nodes, 0) == At(way.nodes, |way.nodes| - 1) <==>
              (|w.nds| == 0 || w.nds[0] == w.nds[|w.nds| - 1]
               || (w.nds[0] !in table && w.nds[|w.nds| - 1] !in table))
  {
    var way := ToWay(w, table);
    if |w.nds| > 0 {
      var a, b := w.nds[0], w.nds[|w.nds| - 1];
      assert way.nodes[0] == Resolve(table, a);
      assert way.nodes[|w.nds| - 1] == Resolve(table, b);
      SameResolution(table, a, b);
    }
  }

  /** In a table whose nodes carry their own keys, two references resolve
      alike exactly when they are equal or both missing. */
  lemma SameResolution(table: map<string, Node>, a: string, b: string)
    requires forall id :: id in table ==> table[id].id == id
    ensures Resolve(table, a) == Resolve(table, b) <==> a == b || (a !in table && b !in table)
  {
    if a in table && b in table {
      assert table[a].id == a && table[b].id == b;
    }
  }

  /** Two different unresolved references at the ends of a way still make it
      closed, so a tagged way with dangling ends is classified as an area. */
  lemma DanglingEndsMakeArea()
    ensures var doc := Document([], [], [WayElem("w1", ["1", "2"], [TagElem("leisure", "park")])], []);
            IsWayArea(BuildGraph(doc).ways[0], DefaultAreaTags)
  {
    var doc := Document([], [], [WayElem("w1", ["1", "2"], [TagElem("leisure", "park")])], []);
    var way := BuildGraph(doc).ways[0];
    assert !Declared(doc.nodes, "1") && !Declared(doc.nodes, "2");
    assert way.tags == GetTags([TagElem("leisure", "park")]);
    assert "leisure" in way.tags;
    assert "leisure" in DefaultAreaTags;
  }
}

=== FILE: OsmRender.dfy ===
/**
 * The geometry step of `L.OSM.DataLayer.addData`: each feature becomes one
 * map layer. A way's point list reads `latLng` from every slot, so an
 * undefined slot throws a TypeError that ends the whole call; an area drops
 * its closing point, a line keeps every point. Styling and the Leaflet layer
 * objects themselves are not modelled.
 */
module OsmRender {
  import opened Wrappers
  import opened OsmData

  /** The Leaflet layer built for one feature, reduced to its geometry. */
  datatype MapLayer =
    | Rectangle(bounds: LatLngBounds)
    | CircleMarker(latLng: LatLng)
    | Polygon(points: seq<LatLng>)
    | Polyline(points: seq<LatLng>)

  /** Where `addData` threw: feature `index`, at way slot `slot`, or with
      `slot == None` when the feature has no `nodes` array at all. */
  datatype Crash = Crash(index: nat, slot: Option<nat>)

  /** What one `addData` call leaves behind: the layers added before it
      returned or threw, and the TypeError if it threw. */
  datatype AddResult = AddResult(layers: seq<MapLayer>, crash: Option<Crash>)

  /** `latLngs[j] = feature.nodes[j].latLng` for every j, failing at the
      first undefined slot. */
  function PointList(nodes: seq<Option<Node>>): (r: Result<seq<LatLng>, nat>)
    ensures r.Success? <==> forall j :: 0 <= j < |nodes| ==> nodes[j].Some?
    ensures r.Success? ==> |r.value| == |nodes|
                           && forall j :: 0 <= j < |nodes| ==> r.value[j] == nodes[j].value.latLng
    ensures r.Failure? ==> r.error < |nodes| && nodes[r.error].None?
                           && forall j :: 0 <= j < r.error ==> nodes[j].Some?
  {
    if |nodes| == 0 then Success([])
    else if nodes[0].None? then Failure(0)
    else match PointList(nodes[1..])
      case Success(rest) => Success([nodes[0].value.latLng] + rest)
      case Failure(j) => Failure(j + 1)
  }

  /** `latLngs.pop()`: drops the last element, and leaves an empty list empty. */
  function Pop<T>(s: seq<T>): seq<T> {
    if |s| == 0 then [] else s[..|s| - 1]
  }

  /** The layer for a way: a polygon without the closing point when it is an
      area, a polyline through every point otherwise. */
  function WayLayer(way: Way, areaTags: seq<string>): (r: Result<MapLayer, nat>)
    ensures r.Success? <==> forall j :: 0 <= j < |way.nodes| ==> way.nodes[j].Some?
    ensures r.Failure? ==> r.error < |way.nodes| && way.nodes[r.error].None?
                           && forall j :: 0 <= j < r.error ==> way.nodes[j].Some?
    ensures r.Success? ==> (r.value.Polygon? <==> IsWayArea(way, areaTags))
    ensures r.Success? && r.value.Polyline? ==> |r.value.points| == |way.nodes|
  {
    match PointList(way.nodes)
    case Failure(j) => Failure(j)
    case Success(latLngs) =>
      if IsWayArea(way, areaTags) then Success(Polygon(Pop(latLngs)))
      else Success(Polyline(latLngs))
  }

  /** The layer for any feature; a relation has no `nodes` array and throws. */
  function FeatureLayer(f: Feature, areaTags: seq<string>): (r: Result<MapLayer, Option<nat>>)
    ensures f.ChangesetFeature? ==> r.Success? && r.value.Rectangle?
    ensures f.NodeFeature? ==> r.Success? && r.value.CircleMarker?
    ensures f.RelationFeature? <==> r.Failure? && r.error.None?
    ensures f.WayFeature? ==> (r.Success? <==> forall j :: 0 <= j < |f.way.nodes| ==> f.way.nodes[j].Some?)
    ensures r.Failure? && r.error.Some? ==> f.WayFeature? && r.error.value < |f.way.nodes| && f.way.nodes[r.error.value].None?
  {
    match f
    case ChangesetFeature(c) => Success(Rectangle(c.latLngBounds))
    case NodeFeature(n) => Success(CircleMarker(n.latLng))
    case WayFeature(w) =>
      (match WayLayer(w, areaTags)
       case Success(l) => Success(l)
       case Failure(j) => Failure(Some(j)))
    case RelationFeature(_) => Failure(None)
  }

  /** `addData` on an array of features: one layer per feature in order,
      stopping at the first feature whose layer throws. */
  function AddFeatures(fs: seq<Feature>, areaTags: seq<string>): (r: AddResult)
    ensures r.crash.None? ==> |r.layers| == |fs|
    ensures r.crash.Some? ==> r.crash.value.index < |fs| && |r.layers| == r.crash.value.index
                              && FeatureLayer(fs[r.crash.value.index], areaTags) == Failure(r.crash.value.slot)
    ensures forall i :: 0 <= i < |r.layers| ==> FeatureLayer(fs[i], areaTags) == Success(r.layers[i])
  {
    if |fs| == 0 then AddResult([], None)
    else match FeatureLayer(fs[0], areaTags)
      case Failure(slot) => AddResult([], Some(Crash(0, slot)))
      case Success(layer) =>
        var rest := AddFeatures(fs[1..], areaTags);
        AddResult([layer] + rest.layers,
                  match rest.crash
                  case None => None
                  case Some(c) => Some(Crash(c.index + 1, c.slot)))
  }

  /** `addData` on an XML document: build the features, then add them. It
      completes exactly when every `nd` reference is declared; otherwise it
      throws at a way's unresolved slot, after every changeset's rectangle. */
  function AddDocument(doc: Document, areaTags: seq<string>): (r: AddResult)
    ensures r.crash.None? <==>
            forall i, j :: 0 <= i < |doc.ways| && 0 <= j < |doc.ways[i].nds| ==> Declared(doc.nodes, doc.ways[i].nds[j])
    ensures r.crash.Some? ==> |doc.changesets| <= r.crash.value.index && r.crash.value.slot.Some?
  {
    DocumentRendersIff(doc, areaTags);
    AddFeatures(BuildFeatures(doc), areaTags)
  }

  /** An area's polygon is its point list without the last point, and the
      dropped point repeats the first; a line keeps all `nodes.length` points. */
  lemma WayGeometry(way: Way, areaTags: seq<string>)
    requires forall j :: 0 <= j < |way.nodes| ==> way.nodes[j].Some?
    ensures var pts := PointList(way.nodes).value;
            var l := WayLayer(way, areaTags);
            && l.Success?
            && (IsWayArea(way, areaTags) ==>
                  && l.value == Polygon(Pop(pts))
                  && |l.value.points| == (if |way.nodes| == 0 then 0 else |way.nodes| - 1)
                  && (|pts| > 0 ==> l.value.points + [pts[0]] == pts))
            && (!IsWayArea(way, areaTags) ==> l.value == Polyline(pts) && |l.value.points| == |way.nodes|)
  {
    var pts := PointList(way.nodes).value;
    if IsWayArea(way, areaTags) && |pts| > 0 {
      var n := |pts|;
      assert way.nodes[0] == way.nodes[n - 1];
      assert pts[..n - 1] + [pts[0]] == pts;
    }
  }

  /** Adding a built document never throws exactly when every `nd` reference
      of every way names a declared node. */
  lemma DocumentRendersIff(doc: Document, areaTags: seq<string>)
    ensures var r := AddFeatures(BuildFeatures(doc), areaTags);
            r.crash.Some? ==> |doc.changesets| <= r.crash.value.index && r.crash.value.slot.Some?
    ensures AddFeatures(BuildFeatures(doc), areaTags).crash.None? <==>
            forall i, j :: 0 <= i < |doc.ways| && 0 <= j < |doc.ways[i].nds| ==> Declared(doc.nodes, doc.ways[i].nds[j])
  {
    var fs := BuildFeatures(doc);
    var r := AddFeatures(fs, areaTags);
    var c := |doc.changesets|;
    if r.crash.None? {
      forall i, j | 0 <= i < |doc.ways| && 0 <= j < |doc.ways[i].nds| ensures Declared(doc.nodes, doc.ways[i].nds[j]) {
        WayRenders(doc, areaTags, i);
        SlotDeclared(doc.nodes, doc.ways[i], j);
      }
    } else {
      var k := r.crash.value.index;
      assert k >= c;
      var i := k - c;
      WayRenders(doc, areaTags, i);
      assert r.crash.value.slot.Some?;
      var j := PointList(ToWay(doc.ways[i], GetNodes(doc.nodes)).nodes).error;
      SlotDeclared(doc.nodes, doc.ways[i], j);
    }
  }

  /** Feature `|changesets| + i` is way `i`, and it throws exactly when its
      point list does. */
  lemma WayRenders(doc: Document, areaTags: seq<string>, i: int)
    requires 0 <= i < |doc.ways|
    ensures var fs := BuildFeatures(doc);
            var way := ToWay(doc.ways[i], GetNodes(doc.nodes));
            && |doc.changesets| + i < |fs|
            && fs[|doc.changesets| + i] == WayFeature(way)
            && (FeatureLayer(fs[|doc.changesets| + i], areaTags).Success? <==> PointList(way.nodes).Success?)
            && (PointList(way.nodes).Failure? ==>
                  FeatureLayer(fs[|doc.changesets| + i], areaTags) == Failure(Some(PointList(way.nodes).error)))
  {
  }

  /** Slot `j` of a built way is resolved exactly when its reference is declared. */
  lemma SlotDeclared(nodes: seq<NodeElem>, w: WayElem, j: int)
    requires 0 <= j < |w.nds|
    ensures var way := ToWay(w, GetNodes(nodes));
            j < |way.nodes| && (way.nodes[j].Some? <==> Declared(nodes, w.nds[j]))
  {
    DeclaredInTable(nodes, w.nds[j]);
  }
}

=== FILE: OverPass.dfy ===
/**
 * The request engine of `L.OverPassLayer`: on every settled viewport it
 * enumerates the tiles of the view, skips those whose `(west, north)` key is
 * already in the request ledger `_requested`, marks the others before
 * sending their request, and counts the batch so that `beforeRequest` fires
 * once before the first request and `afterRequest` fires when the number of
 * successful responses reaches the number of requests. Each successful
 * response goes through the reducer of `options.callback`, which records
 * element ids in `_ids` and stops the whole response at the first id it has
 * already seen.
 *
 * Requests, their asynchronous completion and `JSON.parse` are outside the
 * model: a response is handed in as a status and an already parsed body
 * (`None` when the body does not parse).
 */
module OverPass {
  import opened Wrappers
  import opened Tiles
  import MinZoom

  // ---------------------------------------------------------------------
  // The request ledger and the skip test.
  // ---------------------------------------------------------------------

  /** A ledger key: the `(west, north)` corner of a tile box. */
  type LedgerKey = (real, real)

  function KeysOf(boxes: seq<Box>): set<LedgerKey> {
    set b | b in boxes :: Key(b)
  }

  /** No two boxes share a key. */
  ghost predicate DistinctKeys(boxes: seq<Box>) {
    forall i, j :: 0 <= i < j < |boxes| ==> Key(boxes[i]) != Key(boxes[j])
  }

  /** Box `i` is requested: its key is neither in the ledger the batch
      started from nor the key of an earlier box of the batch. */
  predicate IsFresh(ledger: set<LedgerKey>, boxes: seq<Box>, i: nat)
    requires i < |boxes|
  {
    Key(boxes[i]) !in ledger && Key(boxes[i]) !in KeysOf(boxes[..i])
  }

  lemma KeysOfSnoc(boxes: seq<Box>)
    requires |boxes| > 0
    ensures KeysOf(boxes) == KeysOf(boxes[..|boxes| - 1]) + {Key(boxes[|boxes| - 1])}
  {
    var n := |boxes| - 1;
    assert boxes == boxes[..n] + [boxes[n]];
    forall k | k in KeysOf(boxes) ensures k in KeysOf(boxes[..n]) + {Key(boxes[n])} {
      var b :| b in boxes && Key(b) == k;
      var i :| 0 <= i < |boxes| && boxes[i] == b;
      if i < n {
        assert boxes[..n][i] == b;
      }
    }
  }

  lemma KeysOfCons(b: Box, rest: seq<Box>)
    ensures KeysOf([b] + rest) == {Key(b)} + KeysOf(rest)
  {
    forall k | k in KeysOf([b] + rest) ensures k in {Key(b)} + KeysOf(rest) {
      var c :| c in [b] + rest && Key(c) == k;
      if c != b {
        assert c in rest;
      }
    }
  }

  /** The boxes a batch requests, defined box by box from the skip test: the
      reference the request loop is measured against. */
  function FreshTiles(ledger: set<LedgerKey>, boxes: seq<Box>): (r: seq<Box>)
    ensures |r| <= |boxes|
  {
    if |boxes| == 0 then []
    else
      var n := |boxes| - 1;
      FreshTiles(ledger, boxes[..n]) + (if IsFresh(ledger, boxes, n) then [boxes[n]] else [])
  }

  /** The requested boxes come from the batch and are not in the ledger, no
      two share a key, and their keys are exactly the batch's keys that the
      ledger lacks. */
  lemma {:induction false} FreshTilesMeaning(ledger: set<LedgerKey>, boxes: seq<Box>)
    ensures var r := FreshTiles(ledger, boxes);
            && (forall t :: t in r ==> t in boxes && Key(t) !in ledger)
            && DistinctKeys(r)
            && KeysOf(r) == KeysOf(boxes) - ledger
  {
    if |boxes| > 0 {
      var n := |boxes| - 1;
      var prev := FreshTiles(ledger, boxes[..n]);
      FreshTilesMeaning(ledger, boxes[..n]);
      var r := prev + (if IsFresh(ledger, boxes, n) then [boxes[n]] else []);
      assert r == FreshTiles(ledger, boxes);
      KeysOfSnoc(boxes);
      if IsFresh(ledger, boxes, n) {
        KeysOfSnoc(r);
        assert r[..|r| - 1] == prev;
        forall i, j | 0 <= i < j < |r| ensures Key(r[i]) != Key(r[j]) {
          if j == |prev| {
            assert r[i] == prev[i] && Key(prev[i]) in KeysOf(prev);
          } else {
            assert r[i] == prev[i] && r[j] == prev[j];
          }
        }
      } else {
        assert r == prev;
      }
      forall t | t in r ensures t in boxes && Key(t) !in ledger {
        if t in prev {
          assert t in boxes[..n];
        }
      }
    }
  }

  /** Unfolding `FreshTiles` from the front: the first box is requested when
      its key is not in the ledger, and the rest is planned against the
      ledger with that key added. */
  lemma {:induction false} FreshTilesCons(ledger: set<LedgerKey>, b: Box, rest: seq<Box>)
    ensures FreshTiles(ledger, [b] + rest) ==
            (if Key(b) in ledger then [] else [b]) + FreshTiles(ledger + {Key(b)}, rest)
    decreases |rest|
  {
    var s := [b] + rest;
    if |rest| == 0 {
      assert s[..0] == [];
    } else {
      var n := |s| - 1;
      var m := |rest| - 1;
      var rest' := rest[..m];
      assert s[..n] == [b] + rest';
      assert s[n] == rest[m];
      FreshTilesCons(ledger, b, rest');
      KeysOfCons(b, rest');
      assert IsFresh(ledger, s, n) <==> IsFresh(ledger + {Key(b)}, rest, m);
    }
  }

  // ---------------------------------------------------------------------
  // The request loop of `onMoveEnd`.
  // ---------------------------------------------------------------------

  /** The loop state: the ledger, the requests sent so far, the `queryCount`
      countdown, the `beforeRequest` flag and how often the `beforeRequest`
      callback has been called. */
  datatype Plan = Plan(requested: set<LedgerKey>, requests: seq<Box>, queryCount: int,
                       beforeRequest: bool, beforeCalls: nat)

  /** One iteration: skip a box whose key is marked, otherwise mark it, call
      `beforeRequest` if it has not been called yet, and send the request. */
  function PlanStep(pl: Plan, box: Box): (r: Plan)
    ensures r.requested == pl.requested + {Key(box)}
    ensures |r.requests| == |pl.requests| + (if Key(box) in pl.requested then 0 else 1)
    ensures r.requests[..|pl.requests|] == pl.requests
    ensures |r.requests| - r.queryCount == |pl.requests| - pl.queryCount + 1
    ensures r.beforeCalls <= pl.beforeCalls + 1
  {
    if Key(box) in pl.requested then pl.(queryCount := pl.queryCount - 1)
    else pl.(requested := pl.requested + {Key(box)},
             requests := pl.requests + [box],
             beforeCalls := if pl.beforeRequest then pl.beforeCalls + 1 else pl.beforeCalls,
             beforeRequest := false)
  }

  /** The loop over the batch: every iteration either sends a request or
      counts `queryCount` down, and earlier requests stay in place. */
  function PlanLoop(pl: Plan, boxes: seq<Box>): (r: Plan)
    ensures pl.requested <= r.requested
    ensures |pl.requests| <= |r.requests| <= |pl.requests| + |boxes|
    ensures r.requests[..|pl.requests|] == pl.requests
    ensures |r.requests| - r.queryCount == |pl.requests| - pl.queryCount + |boxes|
    decreases |boxes|
  {
    if |boxes| == 0 then pl
    else
      var pl1 := PlanStep(pl, boxes[0]);
      var r := PlanLoop(pl1, boxes[1..]);
      assert r.requests[..|pl.requests|] == r.requests[..|pl1.requests|][..|pl.requests|];
      r
  }

  lemma {:induction false} PlanLoopMeaning(pl: Plan, boxes: seq<Box>)
    ensures var r := PlanLoop(pl, boxes);
            var sent := FreshTiles(pl.requested, boxes);
            && r.requested == pl.requested + KeysOf(boxes)
            && r.requests == pl.requests + sent
            && r.queryCount == pl.queryCount - |boxes| + |sent|
            && r.beforeRequest == (pl.beforeRequest && |sent| == 0)
            && r.beforeCalls == pl.beforeCalls + (if pl.beforeRequest && |sent| > 0 then 1 else 0)
    decreases |boxes|
  {
    if |boxes| > 0 {
      var b, rest := boxes[0], boxes[1..];
      assert boxes == [b] + rest;
      var pl1 := PlanStep(pl, b);
      PlanLoopMeaning(pl1, rest);
      StepMeaning(pl, b, rest);
    }
  }

  /** One loop iteration, related to `FreshTiles` of the whole remainder. */
  lemma StepMeaning(pl: Plan, b: Box, rest: seq<Box>)
    ensures var pl1 := PlanStep(pl, b);
            var sent := FreshTiles(pl.requested, [b] + rest);
            var tail := FreshTiles(pl1.requested, rest);
            && pl1.requested + KeysOf(rest) == pl.requested + KeysOf([b] + rest)
            && pl1.requests + tail == pl.requests + sent
            && pl1.queryCount - |rest| + |tail| == pl.queryCount - |[b] + rest| + |sent|
            && (pl1.beforeRequest && |tail| == 0) == (pl.beforeRequest && |sent| == 0)
            && pl1.beforeCalls + (if pl1.beforeRequest && |tail| > 0 then 1 else 0)
               == pl.beforeCalls + (if pl.beforeRequest && |sent| > 0 then 1 else 0)
  {
    FreshTilesCons(pl.requested, b, rest);
    KeysOfCons(b, rest);
    var tail := FreshTiles(pl.requested + {Key(b)}, rest);
    if Key(b) in pl.requested {
      assert pl.requested + {Key(b)} == pl.requested;
      assert FreshTiles(pl.requested, [b] + rest) == tail;
    } else {
      SendMeaning(pl, b, tail);
    }
  }

  lemma SendMeaning(pl: Plan, b: Box, tail: seq<Box>)
    requires Key(b) !in pl.requested
    ensures var pl1 := PlanStep(pl, b);
            && pl1.requests + tail == pl.requests + ([b] + tail)
            && pl1.requested == pl.requested + {Key(b)}
            && pl1.queryCount == pl.queryCount
            && !pl1.beforeRequest
            && pl1.beforeCalls == pl.beforeCalls + (if pl.beforeRequest then 1 else 0)
  {
    assert pl.requests + [b] + tail == pl.requests + ([b] + tail);
  }

  /** The whole loop of `onMoveEnd` over the boxes of one view: the ledger
      gains every key of the batch, exactly the fresh boxes are requested, in
      order, `queryCount` ends as the number of requests, and `beforeRequest`
      is called once if any request is sent and never otherwise. */
  function PlanRequests(requested: set<LedgerKey>, boxes: seq<Box>): (r: Plan)
    ensures r.requested == requested + KeysOf(boxes)
    ensures r.requests == FreshTiles(requested, boxes)
    ensures r.queryCount == |r.requests| <= |boxes|
    ensures r.beforeCalls == if |r.requests| > 0 then 1 else 0
  {
    var start := Plan(requested, [], |boxes|, true, 0);
    PlanLoopMeaning(start, boxes);
    PlanLoop(start, boxes)
  }

  /** Planning the same boxes again against the ledger the first plan left
      requests nothing, changes nothing and fires no callback. */
  lemma PlanTwiceRequestsNothing(requested: set<LedgerKey>, boxes: seq<Box>)
    ensures var first := PlanRequests(requested, boxes);
            var again := PlanRequests(first.requested, boxes);
            again.requests == [] && again.queryCount == 0 && again.beforeCalls == 0
            && again.requested == first.requested
  {
    var first := PlanRequests(requested, boxes);
    var sent := FreshTiles(first.requested, boxes);
    FreshTilesMeaning(first.requested, boxes);
    NoKeysNoBoxes(sent);
  }

  lemma NoKeysNoBoxes(s: seq<Box>)
    ensures KeysOf(s) == {} <==> s == []
  {
    if |s| > 0 {
      assert Key(s[0]) in KeysOf(s);
    }
  }

  /** When the boxes' keys are pairwise different and none is in the ledger,
      every box is requested. */
  lemma {:induction false} AllFreshRequested(ledger: set<LedgerKey>, boxes: seq<Box>)
    requires DistinctKeys(boxes)
    requires forall b :: b in boxes ==> Key(b) !in ledger
    ensures FreshTiles(ledger, boxes) == boxes
  {
    if |boxes| > 0 {
      var n := |boxes| - 1;
      AllFreshRequested(ledger, boxes[..n]);
      assert boxes[..n] + [boxes[n]] == boxes;
    }
  }

  // ---------------------------------------------------------------------
  // The response reducer of `options.callback`.
  // ---------------------------------------------------------------------

  datatype Center = Center(lat: real, lon: real)

  /** One element of a response's `elements` array. */
  datatype Element = Element(id: int, kind: string, lat: real, lon: real,
                             center: Option<Center>, tags: map<string, string>)

  /** The circle added for an element, with the data its popup shows. */
  datatype Marker = Marker(lat: real, lon: real, id: int, tags: map<string, string>)

  /** A node is placed at its own position, anything else at its `center`;
      `None` when a non-node has no `center`, where `e.center.lat` throws. */
  function Position(e: Element): Option<(real, real)> {
    if e.kind == "node" then Some((e.lat, e.lon))
    else if e.center.Some? then Some((e.center.value.lat, e.center.value.lon))
    else None
  }

  function IdsOf(es: seq<Element>): set<int> {
    set e | e in es :: e.id
  }

  lemma IdsOfCons(es: seq<Element>, n: nat)
    requires 0 < |es| && n < |es|
    ensures IdsOf(es[..n + 1]) == {es[0].id} + IdsOf(es[1..][..n])
  {
    assert es[..n + 1] == [es[0]] + es[1..][..n];
    forall k | k in IdsOf(es[..n + 1]) ensures k in {es[0].id} + IdsOf(es[1..][..n]) {
      var e :| e in es[..n + 1] && e.id == k;
      if e != es[0] {
        assert e in es[1..][..n];
      }
    }
  }

  /** What the callback did: the id set afterwards, the markers it added in
      order, and whether it threw. */
  datatype Reduction = Reduction(ids: set<int>, markers: seq<Marker>, threw: bool)

  /** The callback over `data.elements`: a seen id ends the whole response
      (`return`, not `continue`); a new id is recorded before its marker is
      built, so an element that throws still has its id recorded. */
  function Reduce(ids: set<int>, elems: seq<Element>): (r: Reduction)
    ensures |r.markers| + (if r.threw then 1 else 0) <= |elems|
    decreases |elems|
  {
    if |elems| == 0 then Reduction(ids, [], false)
    else
      var e := elems[0];
      if e.id in ids then Reduction(ids, [], false)
      else match Position(e)
        case None => Reduction(ids + {e.id}, [], true)
        case Some(pos) =>
          var rest := Reduce(ids + {e.id}, elems[1..]);
          Reduction(rest.ids, [Marker(pos.0, pos.1, e.id, e.tags)] + rest.markers, rest.threw)
  }

  /** The marker built for an element that has a position. */
  function MarkerOf(e: Element): Marker
    requires Position(e).Some?
  {
    Marker(Position(e).value.0, Position(e).value.1, e.id, e.tags)
  }

  /** Element `i` was unseen when the reducer reached it. */
  ghost predicate Unseen(ids: set<int>, elems: seq<Element>, i: int)
    requires 0 <= i < |elems|
  {
    elems[i].id !in ids + IdsOf(elems[..i])
  }

  /** What one reducer run did, in terms of the elements it was given: it
      rendered the longest prefix of unseen, placeable elements in order; it
      stopped either at a seen id (returning normally) or at an unseen element
      with no position (throwing), and `_ids` gained exactly the ids reached. */
  ghost predicate ReducedFrom(ids: set<int>, elems: seq<Element>, r: Reduction)
    requires |r.markers| + (if r.threw then 1 else 0) <= |elems|
  {
    var n := |r.markers|;
    && (forall i :: 0 <= i < n ==> Unseen(ids, elems, i) && Position(elems[i]).Some? && r.markers[i] == MarkerOf(elems[i]))
    && (r.threw ==> Unseen(ids, elems, n) && Position(elems[n]).None?)
    && (!r.threw && n < |elems| ==> !Unseen(ids, elems, n))
    && r.ids == ids + IdsOf(elems[..n + (if r.threw then 1 else 0)])
  }

  /** `Reduce` does what `ReducedFrom` describes. */
  lemma {:induction false} ReduceMeaning(ids: set<int>, elems: seq<Element>)
    ensures ReducedFrom(ids, elems, Reduce(ids, elems))
    decreases |elems|
  {
    if |elems| > 0 {
      var e := elems[0];
      assert elems[..0] == [];
      if e.id !in ids {
        assert elems[..1] == [e];
        if Position(e).Some? {
          var rest := Reduce(ids + {e.id}, elems[1..]);
          ReduceMeaning(ids + {e.id}, elems[1..]);
          RenderStep(ids, elems, rest, Reduce(ids, elems));
        }
      }
    }
  }

  /** The step of `ReduceMeaning` past a rendered first element. */
  lemma RenderStep(ids: set<int>, elems: seq<Element>, rest: Reduction, r: Reduction)
    requires |elems| > 0 && elems[0].id !in ids && Position(elems[0]).Some?
    requires |rest.markers| + (if rest.threw then 1 else 0) <= |elems| - 1
    requires ReducedFrom(ids + {elems[0].id}, elems[1..], rest)
    requires r == Reduction(rest.ids, [MarkerOf(elems[0])] + rest.markers, rest.threw)
    ensures ReducedFrom(ids, elems, r)
  {
    RenderStepMarkers(ids, elems, rest, r);
    RenderStepStop(ids, elems, rest, r);
    RenderStepIds(ids, elems, rest, r);
  }

  lemma RenderStepMarkers(ids: set<int>, elems: seq<Element>, rest: Reduction, r: Reduction)
    requires |elems| > 0 && elems[0].id !in ids && Position(elems[0]).Some?
    requires |rest.markers| + (if rest.threw then 1 else 0) <= |elems| - 1
    requires ReducedFrom(ids + {elems[0].id}, elems[1..], rest)
    requires r == Reduction(rest.ids, [MarkerOf(elems[0])] + rest.markers, rest.threw)
    ensures forall i :: 0 <= i < |r.markers| ==>
              Unseen(ids, elems, i) && Position(elems[i]).Some? && r.markers[i] == MarkerOf(elems[i])
  {
    var e, tail := elems[0], elems[1..];
    assert elems[..0] == [];
    forall i | 0 <= i < |r.markers|
      ensures Unseen(ids, elems, i) && Position(elems[i]).Some? && r.markers[i] == MarkerOf(elems[i])
    {
      if i > 0 {
        UnseenShift(ids, elems, i);
        assert Unseen(ids + {e.id}, tail, i - 1) && tail[i - 1] == elems[i];
        assert r.markers[i] == rest.markers[i - 1];
      }
    }
  }

  lemma RenderStepStop(ids: set<int>, elems: seq<Element>, rest: Reduction, r: Reduction)
    requires |elems| > 0 && elems[0].id !in ids && Position(elems[0]).Some?
    requires |rest.markers| + (if rest.threw then 1 else 0) <= |elems| - 1
    requires ReducedFrom(ids + {elems[0].id}, elems[1..], rest)
    requires r == Reduction(rest.ids, [MarkerOf(elems[0])] + rest.markers, rest.threw)
    ensures var n := |r.markers|;
            && (r.threw ==> Unseen(ids, elems, n) && Position(elems[n]).None?)
            && (!r.threw && n < |elems| ==> !Unseen(ids, elems, n))
  {
    var n := |r.markers|;
    if rest.threw || n < |elems| {
      UnseenShift(ids, elems, n);
      assert elems[1..][n - 1] == elems[n];
    }
  }

  lemma RenderStepIds(ids: set<int>, elems: seq<Element>, rest: Reduction, r: Reduction)
    requires |elems| > 0 && elems[0].id !in ids && Position(elems[0]).Some?
    requires |rest.markers| + (if rest.threw then 1 else 0) <= |elems| - 1
    requires ReducedFrom(ids + {elems[0].id}, elems[1..], rest)
    requires r == Reduction(rest.ids, [MarkerOf(elems[0])] + rest.markers, rest.threw)
    ensures r.ids == ids + IdsOf(elems[..|r.markers| + (if r.threw then 1 else 0)])
  {
    IdsOfCons(elems, |rest.markers| + (if rest.threw then 1 else 0));
  }

  lemma UnseenShift(ids: set<int>, elems: seq<Element>, i: int)
    requires 0 < i < |elems|
    ensures Unseen(ids, elems, i) == Unseen(ids + {elems[0].id}, elems[1..], i - 1)
  {
    IdsOfCons(elems, i - 1);
    assert elems[1..][i - 1] == elems[i];
  }

  /** Markers carry their element's id, and each of those ids is recorded. */
  lemma MarkersRecorded(ids: set<int>, elems: seq<Element>)
    ensures var r := Reduce(ids, elems);
            ids <= r.ids
            && (forall m :: m in r.markers ==> m.id in r.ids && m.id !in ids)
            && (forall i, j :: 0 <= i < j < |r.markers| ==> r.markers[i].id != r.markers[j].id)
  {
    var r := Reduce(ids, elems);
    ReduceMeaning(ids, elems);
    MarkerIdsRecorded(ids, elems, r);
    MarkerIdsDistinct(ids, elems, r);
  }

  lemma MarkerIdsRecorded(ids: set<int>, elems: seq<Element>, r: Reduction)
    requires |r.markers| <= |elems|
    requires forall i :: 0 <= i < |r.markers| ==> Unseen(ids, elems, i) && Position(elems[i]).Some? && r.markers[i] == MarkerOf(elems[i])
    requires r.ids == ids + IdsOf(elems[..|r.markers|]) || (|r.markers| < |elems| && r.ids == ids + IdsOf(elems[..|r.markers| + 1]))
    ensures ids <= r.ids
    ensures forall m :: m in r.markers ==> m.id in r.ids && m.id !in ids
  {
    var n := |r.markers|;
    forall m | m in r.markers ensures m.id in r.ids && m.id !in ids {
      var i :| 0 <= i < n && r.markers[i] == m;
      assert Unseen(ids, elems, i);
      assert m.id == elems[i].id;
      if r.ids == ids + IdsOf(elems[..n]) {
        assert elems[..n][i] == elems[i];
        assert elems[i] in elems[..n];
      } else {
        assert elems[..n + 1][i] == elems[i];
        assert elems[i] in elems[..n + 1];
      }
    }
  }

  lemma MarkerIdsDistinct(ids: set<int>, elems: seq<Element>, r: Reduction)
    requires |r.markers| <= |elems|
    requires forall i :: 0 <= i < |r.markers| ==> Unseen(ids, elems, i) && Position(elems[i]).Some? && r.markers[i] == MarkerOf(elems[i])
    ensures forall i, j :: 0 <= i < j < |r.markers| ==> r.markers[i].id != r.markers[j].id
  {
    var n := |r.markers|;
    forall i, j | 0 <= i < j < n ensures r.markers[i].id != r.markers[j].id {
      assert Unseen(ids, elems, j);
      assert elems[..j][i] == elems[i];
      assert elems[i] in elems[..j];
    }
  }

  /** No id is rendered both from one response and from the response handled
      right after it; `DeliverRendersOnce` and `RenderedOnceUntilRemove`
      extend this to any later response until the layer is removed. */
  lemma RenderedOnce(ids: set<int>, first: seq<Element>, second: seq<Element>)
    ensures var r1 := Reduce(ids, first);
            var r2 := Reduce(r1.ids, second);
            forall m1, m2 :: m1 in r1.markers && m2 in r2.markers ==> m1.id != m2.id
  {
    MarkersRecorded(ids, first);
    MarkersRecorded(Reduce(ids, first).ids, second);
  }

  // ---------------------------------------------------------------------
  // Layer state, batches and events.
  // ---------------------------------------------------------------------

  /** `_requested` and `_ids`. */
  datatype LayerState = LayerState(requested: set<LedgerKey>, ids: set<int>)

  /** The counters one `onMoveEnd` call shares with its response handlers. */
  datatype Batch = Batch(queryCount: int, finishedCount: int)

  /** A response: the HTTP status and the parsed body, `None` when
      `JSON.parse` throws. */
  datatype Response = Response(status: int, body: Option<seq<Element>>)

  /** The view bounds `getBounds()` reports. */
  datatype View = View(west: real, south: real, east: real, north: real)

  /** What `onMoveEnd` produced: the new state, the requests sent, the batch
      counters (`None` below the minimum zoom), and `beforeRequest` calls. */
  datatype Moved = Moved(layer: LayerState, requests: seq<Box>, batch: Option<Batch>, beforeCalls: nat)

  function ViewBoxes(p: LatProjection, v: View): seq<Box> {
    View2BBoxes(p, v.west, v.south, v.east, v.north)
  }

  /** `onMoveEnd`: nothing below `minzoom`; otherwise plan the view's tiles. */
  function OnMoveEnd(layer: LayerState, minzoom: int, zoom: int, p: LatProjection, v: View): (r: Moved)
    ensures zoom < minzoom ==> r == Moved(layer, [], None, 0)
    ensures zoom >= minzoom ==>
              var boxes := ViewBoxes(p, v);
              && r.layer == LayerState(layer.requested + KeysOf(boxes), layer.ids)
              && r.requests == FreshTiles(layer.requested, boxes)
              && r.batch == Some(Batch(|r.requests|, 0))
              && r.beforeCalls == (if |r.requests| > 0 then 1 else 0)
  {
    if zoom >= minzoom then
      var plan := PlanRequests(layer.requested, ViewBoxes(p, v));
      Moved(layer.(requested := plan.requested), plan.requests, Some(Batch(plan.queryCount, 0)), plan.beforeCalls)
    else Moved(layer, [], None, 0)
  }

  /** With an empty ledger and rows whose rounded north edges differ, the
      first settled view at or above `minzoom` requests every tile. */
  lemma FirstViewRequestsEveryTile(minzoom: int, zoom: int, p: LatProjection, v: View, ids: set<int>)
    requires zoom >= minzoom
    requires var ix := Indices(p, v.west, v.south, v.east, v.north); NorthEdgesDistinct(p, ix.tidx, ix.bidx)
    ensures OnMoveEnd(LayerState({}, ids), minzoom, zoom, p, v).requests == ViewBoxes(p, v)
  {
    EnumerationKeysDistinct(p, v.west, v.south, v.east, v.north);
    AllFreshRequested({}, ViewBoxes(p, v));
  }

  /** `200 <= status < 400`. */
  predicate IsSuccess(status: int) {
    200 <= status && status < 400
  }

  /** The response completes its batch: it succeeded, parsed, and the
      callback returned normally. */
  predicate Counts(layer: LayerState, resp: Response) {
    IsSuccess(resp.status) && resp.body.Some? && !Reduce(layer.ids, resp.body.value).threw
  }

  /** What one `onload` did. */
  datatype Loaded = Loaded(layer: LayerState, batch: Batch, markers: seq<Marker>, afterCalls: nat)

  /** `request.onload`: a successful response runs the callback, and only if
      that returns normally is `finishedCount` incremented and compared with
      `queryCount`. The ledger is never touched here. */
  function OnLoad(layer: LayerState, batch: Batch, resp: Response): (r: Loaded)
    ensures r.layer.requested == layer.requested && layer.ids <= r.layer.ids
    ensures r.batch.queryCount == batch.queryCount
    ensures r.batch.finishedCount == batch.finishedCount + (if Counts(layer, resp) then 1 else 0)
    ensures r.afterCalls == (if Counts(layer, resp) && r.batch.finishedCount == batch.queryCount then 1 else 0)
    ensures !IsSuccess(resp.status) ==> r == Loaded(layer, batch, [], 0)
    ensures resp.body.None? ==> r == Loaded(layer, batch, [], 0)
    ensures IsSuccess(resp.status) && resp.body.Some? ==>
              var red := Reduce(layer.ids, resp.body.value);
              r.layer.ids == red.ids && r.markers == red.markers
  {
    if IsSuccess(resp.status) && resp.body.Some? then
      var red := Reduce(layer.ids, resp.body.value);
      MarkersRecorded(layer.ids, resp.body.value);
      var layer' := layer.(ids := red.ids);
      if red.threw then Loaded(layer', batch, red.markers, 0)
      else
        var finished := batch.finishedCount + 1;
        Loaded(layer', batch.(finishedCount := finished), red.markers, if finished == batch.queryCount then 1 else 0)
    else Loaded(layer, batch, [], 0)
  }

  /** The responses of one batch, handled in arrival order. */
  function Deliver(layer: LayerState, batch: Batch, resps: seq<Response>): (r: Loaded)
    ensures r.layer.requested == layer.requested && layer.ids <= r.layer.ids
    ensures r.batch.queryCount == batch.queryCount
    ensures batch.finishedCount <= r.batch.finishedCount <= batch.finishedCount + |resps|
    decreases |resps|
  {
    if |resps| == 0 then Loaded(layer, batch, [], 0)
    else
      var first := OnLoad(layer, batch, resps[0]);
      var rest := Deliver(first.layer, first.batch, resps[1..]);
      Loaded(rest.layer, rest.batch, first.markers + rest.markers, first.afterCalls + rest.afterCalls)
  }

  /** The markers `ms` carry pairwise different ids, none of which was in
      `before`, and all of which are in `after`. */
  ghost predicate RenderedFresh(before: set<int>, ms: seq<Marker>, after: set<int>) {
    && (forall i, j :: 0 <= i < j < |ms| ==> ms[i].id != ms[j].id)
    && (forall m :: m in ms ==> m.id !in before && m.id in after)
  }

  /** One response renders only ids the layer had not seen, each once, and
      records all of them. */
  lemma LoadRendersFresh(layer: LayerState, batch: Batch, resp: Response)
    ensures var r := OnLoad(layer, batch, resp);
            RenderedFresh(layer.ids, r.markers, r.layer.ids)
  {
    if IsSuccess(resp.status) && resp.body.Some? {
      MarkersRecorded(layer.ids, resp.body.value);
    }
  }

  /** Two runs of fresh markers, the second starting from the ids the first
      ended with, make one run of fresh markers. */
  lemma JoinRendered(a: set<int>, m1: seq<Marker>, b: set<int>, m2: seq<Marker>, c: set<int>)
    requires a <= b <= c && RenderedFresh(a, m1, b) && RenderedFresh(b, m2, c)
    ensures RenderedFresh(a, m1 + m2, c)
  {
    var ms := m1 + m2;
    forall i, j | 0 <= i < j < |ms| ensures ms[i].id != ms[j].id {
      if j < |m1| {
        assert ms[i] == m1[i] && ms[j] == m1[j];
      } else if i < |m1| {
        assert ms[i] == m1[i] && m1[i] in m1;
        assert ms[j] == m2[j - |m1|] && m2[j - |m1|] in m2;
      } else {
        assert ms[i] == m2[i - |m1|] && ms[j] == m2[j - |m1|];
      }
    }
    forall m | m in ms ensures m.id !in a && m.id in c {
      if m in m1 {
        assert m.id in b;
      }
    }
  }

  /** Over any sequence of responses, no id is rendered twice, none that the
      layer had already seen is rendered, and every rendered id is recorded. */
  lemma {:induction false} DeliverRendersOnce(layer: LayerState, batch: Batch, resps: seq<Response>)
    ensures var r := Deliver(layer, batch, resps);
            RenderedFresh(layer.ids, r.markers, r.layer.ids)
    decreases |resps|
  {
    if |resps| > 0 {
      var first := OnLoad(layer, batch, resps[0]);
      var rest := Deliver(first.layer, first.batch, resps[1..]);
      LoadRendersFresh(layer, batch, resps[0]);
      DeliverRendersOnce(first.layer, first.batch, resps[1..]);
      JoinRendered(layer.ids, first.markers, first.layer.ids, rest.markers, rest.layer.ids);
    }
  }

  /** Across any sequence of responses, `afterRequest` fires at most once:
      exactly when the count of completed responses passes `queryCount`. */
  lemma {:induction false} AfterRequestOnce(layer: LayerState, batch: Batch, resps: seq<Response>)
    ensures var r := Deliver(layer, batch, resps);
            && r.layer.requested == layer.requested
            && r.batch.queryCount == batch.queryCount
            && r.batch.finishedCount >= batch.finishedCount
            && r.afterCalls == (if batch.finishedCount < batch.queryCount <= r.batch.finishedCount then 1 else 0)
    decreases |resps|
  {
    if |resps| > 0 {
      var first := OnLoad(layer, batch, resps[0]);
      AfterRequestOnce(first.layer, first.batch, resps[1..]);
    }
  }

  /** A batch planned by `onMoveEnd` fires `afterRequest` once if it sent at
      least one request and at least that many responses completed, and
      never otherwise; a batch with nothing to request fires neither callback. */
  lemma BatchAccounting(layer: LayerState, minzoom: int, zoom: int, p: LatProjection, v: View,
                        resps: seq<Response>)
    requires zoom >= minzoom
    ensures var m := OnMoveEnd(layer, minzoom, zoom, p, v);
            var r := Deliver(m.layer, m.batch.value, resps);
            && r.afterCalls <= 1
            && (r.afterCalls == 1 <==> 0 < |m.requests| <= r.batch.finishedCount)
            && (|m.requests| == 0 ==> m.beforeCalls == 0 && r.afterCalls == 0)
  {
    var m := OnMoveEnd(layer, minzoom, zoom, p, v);
    AfterRequestOnce(m.layer, m.batch.value, resps);
  }

  // ---------------------------------------------------------------------
  // Attaching, detaching, and whole sessions.
  // ---------------------------------------------------------------------

  /** `onAdd`: register with the zoom indicator, then run `onMoveEnd` once. */
  function OnAdd(reg: MinZoom.Registry, id: MinZoom.LayerId, layer: LayerState, minzoom: int, zoom: int,
                 p: LatProjection, v: View): (r: (MinZoom.Registry, Moved))
    ensures id in r.0 && r.0[id] == Some(MinZoom.RecordedZoom(minzoom))
    ensures forall k :: k in reg && k != id ==> k in r.0 && r.0[k] == reg[k]
    ensures r.0.Keys == reg.Keys + {id}
    ensures r.1.layer.ids == layer.ids
    ensures r.1.layer.requested == layer.requested + (if zoom >= minzoom then KeysOf(ViewBoxes(p, v)) else {})
    ensures r.1.requests == (if zoom >= minzoom then FreshTiles(layer.requested, ViewBoxes(p, v)) else [])
    ensures r.1.batch == (if zoom >= minzoom then Some(Batch(|r.1.requests|, 0)) else None)
    ensures r.1.beforeCalls == (if |r.1.requests| > 0 then 1 else 0)
  {
    (MinZoom.AddLayer(reg, id, minzoom), OnMoveEnd(layer, minzoom, zoom, p, v))
  }

  /** `onRemove`: empty `_ids` and `_requested` and null the indicator entry. */
  function OnRemove(reg: MinZoom.Registry, id: MinZoom.LayerId): (r: (MinZoom.Registry, LayerState))
    ensures r.1.requested == {} && r.1.ids == {}
    ensures id in r.0 && r.0[id] == None
    ensures r.0.Keys == reg.Keys + {id}
    ensures forall k :: k in reg && k != id ==> r.0[k] == reg[k]
  {
    (MinZoom.RemoveLayer(reg, id), LayerState({}, {}))
  }

  /** Events reaching one attached layer. `Load(b, resp)` is a response to a
      request of the `b`-th batch. */
  datatype Event = MoveEnd(zoom: int, view: View) | Load(batch: nat, resp: Response) | Remove

  /** A layer's history: its state, every batch's counters, every request
      sent, every marker rendered, and how often each callback fired. */
  datatype Session = Session(layer: LayerState, batches: seq<Batch>, issued: seq<Box>,
                             rendered: seq<Marker>, beforeCalls: nat, afterCalls: nat)

  /** One event: a settled view plans a batch, a response is handled by its
      batch's `onload`, and a removal clears the layer. */
  function Step(minzoom: int, p: LatProjection, s: Session, e: Event): (r: Session)
    ensures |s.batches| <= |r.batches| && |s.issued| <= |r.issued| && |s.rendered| <= |r.rendered|
    ensures e.Remove? ==> r.layer == LayerState({}, {}) && r.issued == s.issued && r.rendered == s.rendered
    ensures e.Load? ==> r.layer.requested == s.layer.requested && r.issued == s.issued
    ensures e.MoveEnd? ==> r.layer.ids == s.layer.ids && r.rendered == s.rendered
  {
    match e
    case MoveEnd(zoom, v) =>
      var m := OnMoveEnd(s.layer, minzoom, zoom, p, v);
      Session(m.layer, s.batches + (if m.batch.Some? then [m.batch.value] else []),
              s.issued + m.requests, s.rendered, s.beforeCalls + m.beforeCalls, s.afterCalls)
    case Load(b, resp) =>
      if b < |s.batches| then
        var l := OnLoad(s.layer, s.batches[b], resp);
        s.(layer := l.layer, batches := s.batches[b := l.batch], rendered := s.rendered + l.markers,
           afterCalls := s.afterCalls + l.afterCalls)
      else s
    case Remove => s.(layer := LayerState({}, {}))
  }

  /** A sequence of events, in order. */
  function Run(minzoom: int, p: LatProjection, s: Session, es: seq<Event>): (r: Session)
    ensures |s.batches| <= |r.batches| && |s.issued| <= |r.issued| && |s.rendered| <= |r.rendered|
    ensures s.beforeCalls <= r.beforeCalls && s.afterCalls <= r.afterCalls
    decreases |es|
  {
    if |es| == 0 then s else Run(minzoom, p, Step(minzoom, p, s, es[0]), es[1..])
  }

  /** One event other than `Remove` adds to the ledger exactly the keys of
      the requests it sends, which are new and pairwise different. */
  lemma StepLedger(minzoom: int, p: LatProjection, s: Session, e: Event)
    requires !e.Remove?
    ensures var s1 := Step(minzoom, p, s, e);
            |s.issued| <= |s1.issued| && s1.issued[..|s.issued|] == s.issued
    ensures var s1 := Step(minzoom, p, s, e);
            var now := s1.issued[|s.issued|..];
            && s1.layer.requested == s.layer.requested + KeysOf(now)
            && DistinctKeys(now)
            && (forall b :: b in now ==> Key(b) !in s.layer.requested)
            && s.layer.ids <= s1.layer.ids
  {
    var s1 := Step(minzoom, p, s, e);
    if e.MoveEnd? && e.zoom >= minzoom {
      var boxes := ViewBoxes(p, e.view);
      FreshTilesMeaning(s.layer.requested, boxes);
      assert s1.issued[|s.issued|..] == FreshTiles(s.layer.requested, boxes);
    } else {
      assert s1.issued[|s.issued|..] == [];
    }
  }

  /** Joining two runs of sends whose keys are new to the ledgers they met. */
  lemma JoinSends(ledger: set<LedgerKey>, now: seq<Box>, later: seq<Box>)
    requires DistinctKeys(now) && DistinctKeys(later)
    requires forall b :: b in now ==> Key(b) !in ledger
    requires forall b :: b in later ==> Key(b) !in ledger + KeysOf(now)
    ensures DistinctKeys(now + later)
    ensures forall b :: b in now + later ==> Key(b) !in ledger
    ensures KeysOf(now + later) == KeysOf(now) + KeysOf(later)
  {
    var sent := now + later;
    KeysOfAppend(now, later);
    forall i, j | 0 <= i < j < |sent| ensures Key(sent[i]) != Key(sent[j]) {
      if j < |now| {
        assert sent[i] == now[i] && sent[j] == now[j];
      } else if i < |now| {
        assert sent[i] == now[i] && Key(now[i]) in KeysOf(now);
        assert sent[j] == later[j - |now|] && sent[j] in later;
      } else {
        assert sent[i] == later[i - |now|] && sent[j] == later[j - |now|];
      }
    }
    forall b | b in sent ensures Key(b) !in ledger {
      if b !in now {
        assert b in later;
      }
    }
  }

  /** Until the layer is removed, the ledger only grows, it grows by exactly
      the keys of the requests sent, and no key is ever requested twice. */
  lemma {:induction false} LedgerGrowsUntilRemove(minzoom: int, p: LatProjection, s: Session, es: seq<Event>)
    requires forall i :: 0 <= i < |es| ==> !es[i].Remove?
    ensures var r := Run(minzoom, p, s, es);
            |s.issued| <= |r.issued| && r.issued[..|s.issued|] == s.issued
    ensures var r := Run(minzoom, p, s, es);
            var sent := r.issued[|s.issued|..];
            && r.layer.requested == s.layer.requested + KeysOf(sent)
            && DistinctKeys(sent)
            && (forall b :: b in sent ==> Key(b) !in s.layer.requested)
            && s.layer.ids <= r.layer.ids
    decreases |es|
  {
    var r := Run(minzoom, p, s, es);
    if |es| > 0 {
      var s1 := Step(minzoom, p, s, es[0]);
      assert r == Run(minzoom, p, s1, es[1..]);
      StepLedger(minzoom, p, s, es[0]);
      LedgerGrowsUntilRemove(minzoom, p, s1, es[1..]);
      Slices(s.issued, s1.issued, r.issued);
      JoinSends(s.layer.requested, s1.issued[|s.issued|..], r.issued[|s1.issued|..]);
    } else {
      assert r.issued[|s.issued|..] == [];
    }
  }

  /** Prefixes compose, and the suffix past the shortest splits in two. */
  lemma Slices<T>(a: seq<T>, b: seq<T>, c: seq<T>)
    requires |a| <= |b| && b[..|a|] == a
    requires |b| <= |c| && c[..|b|] == b
    ensures |a| <= |c| && c[..|a|] == a
    ensures c[|a|..] == b[|a|..] + c[|b|..]
  {
    assert c[..|a|] == c[..|b|][..|a|];
  }

  /** One event other than `Remove` renders only fresh markers and keeps the
      ids the layer had seen. */
  lemma StepRenders(minzoom: int, p: LatProjection, s: Session, e: Event)
    requires !e.Remove?
    ensures var s1 := Step(minzoom, p, s, e);
            && s1.rendered[..|s.rendered|] == s.rendered
            && s.layer.ids <= s1.layer.ids
            && RenderedFresh(s.layer.ids, s1.rendered[|s.rendered|..], s1.layer.ids)
  {
    var s1 := Step(minzoom, p, s, e);
    if e.Load? && e.batch < |s.batches| {
      var l := OnLoad(s.layer, s.batches[e.batch], e.resp);
      LoadRendersFresh(s.layer, s.batches[e.batch], e.resp);
      assert s1.rendered[|s.rendered|..] == l.markers;
    } else {
      assert s1.rendered[|s.rendered|..] == [];
    }
  }

  /** Until the layer is removed, no id is rendered twice, whichever
      responses arrive and in whatever order, and no id seen before is
      rendered at all. */
  lemma {:induction false} RenderedOnceUntilRemove(minzoom: int, p: LatProjection, s: Session, es: seq<Event>)
    requires forall i :: 0 <= i < |es| ==> !es[i].Remove?
    ensures var r := Run(minzoom, p, s, es);
            && r.rendered[..|s.rendered|] == s.rendered
            && s.layer.ids <= r.layer.ids
            && RenderedFresh(s.layer.ids, r.rendered[|s.rendered|..], r.layer.ids)
    decreases |es|
  {
    var r := Run(minzoom, p, s, es);
    if |es| > 0 {
      var s1 := Step(minzoom, p, s, es[0]);
      assert r == Run(minzoom, p, s1, es[1..]);
      StepRenders(minzoom, p, s, es[0]);
      RenderedOnceUntilRemove(minzoom, p, s1, es[1..]);
      Slices(s.rendered, s1.rendered, r.rendered);
      JoinRendered(s.layer.ids, s1.rendered[|s.rendered|..], s1.layer.ids,
                   r.rendered[|s1.rendered|..], r.layer.ids);
    } else {
      assert r.rendered[|s.rendered|..] == [];
    }
  }

  lemma KeysOfAppend(a: seq<Box>, b: seq<Box>)
    ensures KeysOf(a + b) == KeysOf(a) + KeysOf(b)
  {
    forall k | k in KeysOf(a + b) ensures k in KeysOf(a) + KeysOf(b) {
      var c :| c in a + b && Key(c) == k;
    }
  }

  /** After `Remove` the layer starts over: ledger and id set are empty. */
  lemma RemoveResets(minzoom: int, p: LatProjection, s: Session)
    ensures var r := Step(minzoom, p, s, Remove);
            r.layer.requested == {} && r.layer.ids == {} && r.batches == s.batches && r.issued == s.issued
  {
  }
}

=== FILE: Tiles.dfy ===
/**
 * The slippy-map tiling of `L.OverPassLayer._view2BBoxes`: the visible area
 * is converted to integer tile indices at the request zoom level, every tile
 * of the index rectangle is enumerated (x outer, y inner), and each tile is
 * turned back into a bounding box rounded to six decimals.
 *
 * Longitude conversion is plain arithmetic and is modelled over the reals.
 * Latitude conversion goes through tan/log/exp/atan and is taken as a pair
 * of given functions (`LatProjection`).
 */
module Tiles {

  /** `requestZoomLevel`. */
  const RequestZoom: nat := 14

  /** `Math.pow(2, requestZoomLevel)`. */
  const TilesPerAxis: real := 16384.0

  /** `long2tile(lon, 14)`. */
  function Long2Tile(lon: real): (r: int)
    ensures Tile2Long(r) <= lon < Tile2Long(r + 1)
  {
    ((lon + 180.0) / 360.0 * TilesPerAxis).Floor
  }

  /** `tile2long(x, 14)`: the longitude of the west edge of column `x`. */
  function Tile2Long(x: int): (r: real)
    ensures (r + 180.0) * TilesPerAxis == x as real * 360.0
    ensures 0 <= x <= TilesPerAxis as int ==> -180.0 <= r <= 180.0
  {
    x as real / TilesPerAxis * 360.0 - 180.0
  }

  /** `Math.round`: the nearest integer, halves rounded up. */
  function MathRound(v: real): int {
    (v + 0.5).Floor
  }

  /** `Math.round(v * 1000000) / 1000000`. */
  function Round6(v: real): (r: real)
    ensures v - 0.0000005 < r <= v + 0.0000005
    ensures (r * 1000000.0).Floor as real == r * 1000000.0
  {
    MathRound(v * 1000000.0) as real / 1000000.0
  }

  /** `lat2tile(lat, 14)` and `tile2lat(y, 14)`, left uninterpreted. */
  datatype LatProjection = LatProjection(lat2tile: real -> int, tile2lat: int -> real)

  /** A tile bounding box, `L.LatLngBounds((south, west), (north, east))`. */
  datatype Box = Box(south: real, west: real, north: real, east: real)

  /** The index rectangle `[lidx..ridx] x [tidx..bidx]`. */
  datatype TileRange = TileRange(lidx: int, ridx: int, tidx: int, bidx: int)

  /** The number of integers in `[lo..hi]`. */
  function Count(lo: int, hi: int): nat {
    if lo <= hi then hi - lo + 1 else 0
  }

  function Min(a: real, b: real): real { if a <= b then a else b }

  function Max(a: real, b: real): real { if a <= b then b else a }

  /** `new L.LatLngBounds(new L.LatLng(lat1, lng1), new L.LatLng(lat2, lng2))`:
      the constructor extends an empty box by both corners, so each side is
      the smaller or larger of the two given values, whichever order they
      come in. */
  function Bounds(lat1: real, lng1: real, lat2: real, lng2: real): Box {
    Box(Min(lat1, lat2), Min(lng1, lng2), Max(lat1, lat2), Max(lng1, lng2))
  }

  /** The box is the two corners sorted: south and north are the two given
      latitudes with the smaller first, west and east likewise. */
  lemma BoundsSorted(lat1: real, lng1: real, lat2: real, lng2: real)
    ensures var r := Bounds(lat1, lng1, lat2, lng2);
            && r.south <= r.north && r.west <= r.east
            && ((r.south, r.north) == (lat1, lat2) || (r.south, r.north) == (lat2, lat1))
            && ((r.west, r.east) == (lng1, lng2) || (r.west, r.east) == (lng2, lng1))
  {
  }

  /** The rounded bounds of tile `(x, y)`, built from the corners
      `(bottom, left)` and `(top, right)`. */
  function TileBox(p: LatProjection, x: int, y: int): (r: Box)
    ensures r.south <= r.north && r.west < r.east
    ensures r.west == Round6(Tile2Long(x)) && r.east == Round6(Tile2Long(x + 1))
  {
    WestEdgesDistinct(x, x + 1);
    Bounds(Round6(p.tile2lat(y + 1)), Round6(Tile2Long(x)), Round6(p.tile2lat(y)), Round6(Tile2Long(x + 1)))
  }

  /** The larger of the two rounded latitudes of row `y`: the north edge of
      every box in that row, and the second half of its ledger key. */
  function RowNorth(p: LatProjection, y: int): real {
    Max(Round6(p.tile2lat(y)), Round6(p.tile2lat(y + 1)))
  }

  /** The tile indices of the view with west `l`, south `b`, east `r`, north `t`. */
  function Indices(p: LatProjection, l: real, b: real, r: real, t: real): TileRange {
    TileRange(Long2Tile(l), Long2Tile(r), p.lat2tile(t), p.lat2tile(b))
  }

  /** A tile index pair `(x, y)`. */
  type Tile = (int, int)

  /** The inner loop: tiles `(x, y) .. (x, bidx)`. */
  function Column(x: int, y: int, bidx: int): (r: seq<Tile>)
    ensures |r| == Count(y, bidx)
    ensures forall k :: 0 <= k < |r| ==> r[k] == (x, y + k)
    decreases bidx - y
  {
    if y > bidx then []
    else [(x, y)] + Column(x, y + 1, bidx)
  }

  /** Position of the `j`-th row of the `i`-th column when every column has `h` rows. */
  function Pos(i: int, j: int, h: int): int {
    i * h + j
  }

  lemma PosShift(i: int, j: int, h: int)
    ensures Pos(i + 1, j, h) == h + Pos(i, j, h)
  {
    assert (i + 1) * h == i * h + h;
  }

  lemma PosBound(i: int, w: int, j: int, h: int)
    requires 0 <= i < w && 0 <= j < h
    ensures 0 <= Pos(i, j, h) < w * h
  {
    assert i * h + h <= w * h by {
      assert (w - i - 1) * h >= 0;
      assert w * h - i * h - h == (w - i - 1) * h;
    }
  }

  /** The outer loop: columns `x .. ridx`, each with rows `tidx .. bidx`. */
  function Columns(x: int, ridx: int, tidx: int, bidx: int): (r: seq<Tile>)
    ensures |r| == Count(x, ridx) * Count(tidx, bidx)
    ensures forall i, j :: 0 <= i < Count(x, ridx) && 0 <= j < Count(tidx, bidx) ==>
              0 <= Pos(i, j, Count(tidx, bidx)) < |r| &&
              r[Pos(i, j, Count(tidx, bidx))] == (x + i, tidx + j)
    decreases ridx - x
  {
    if x > ridx then []
    else
      var col := Column(x, tidx, bidx);
      var rest := Columns(x + 1, ridx, tidx, bidx);
      var h := Count(tidx, bidx);
      var w := Count(x, ridx);
      assert w * h == h + (w - 1) * h;
      assert forall i, j :: 0 <= i < w && 0 <= j < h ==>
               0 <= Pos(i, j, h) < h + |rest| && (col + rest)[Pos(i, j, h)] == (x + i, tidx + j) by {
        forall i, j | 0 <= i < w && 0 <= j < h
          ensures 0 <= Pos(i, j, h) < h + |rest| && (col + rest)[Pos(i, j, h)] == (x + i, tidx + j)
        {
          PosBound(i, w, j, h);
          if i > 0 {
            PosShift(i - 1, j, h);
          }
        }
      }
      col + rest
  }

  /** Every tile of `ts` lies in `[x..ridx] x [tidx..bidx]`. */
  ghost predicate Within(ts: seq<Tile>, x: int, ridx: int, tidx: int, bidx: int) {
    forall k :: 0 <= k < |ts| ==> x <= ts[k].0 <= ridx && tidx <= ts[k].1 <= bidx
  }

  /** No element of `ts` occurs twice. */
  ghost predicate NoRepeats(ts: seq<Tile>) {
    forall i, j :: 0 <= i < j < |ts| ==> ts[i] != ts[j]
  }

  /** Every enumerated tile lies in the index rectangle, and no tile is
      enumerated twice. */
  lemma {:induction false} ColumnsTiles(x: int, ridx: int, tidx: int, bidx: int)
    ensures Within(Columns(x, ridx, tidx, bidx), x, ridx, tidx, bidx)
    ensures NoRepeats(Columns(x, ridx, tidx, bidx))
    decreases ridx - x
  {
    if x <= ridx {
      var col := Column(x, tidx, bidx);
      var rest := Columns(x + 1, ridx, tidx, bidx);
      var r := col + rest;
      assert Columns(x, ridx, tidx, bidx) == r;
      ColumnsTiles(x + 1, ridx, tidx, bidx);
      forall k | 0 <= k < |r| ensures x <= r[k].0 <= ridx && tidx <= r[k].1 <= bidx {
        if k >= |col| {
          assert r[k] == rest[k - |col|];
        }
      }
      forall i, j | 0 <= i < j < |r| ensures r[i] != r[j] {
        if j < |col| {
          assert r[i] == (x, tidx + i) && r[j] == (x, tidx + j);
        } else if i < |col| {
          assert r[i].0 == x && r[j] == rest[j - |col|];
        } else {
          assert r[i] == rest[i - |col|] && r[j] == rest[j - |col|];
        }
      }
    }
  }

  /** `_view2BBoxes(l, b, r, t)`: exactly one box per tile of the index
      rectangle, x outer and y inner: the tile at offset `(i, j)` from
      `(lidx, tidx)` sits at position `i * height + j`, and there are
      `width * height` boxes, none when either range is empty. */
  function View2BBoxes(p: LatProjection, l: real, b: real, r: real, t: real): (boxes: seq<Box>)
    ensures var ix := Indices(p, l, b, r, t);
            && |boxes| == Count(ix.lidx, ix.ridx) * Count(ix.tidx, ix.bidx)
            && (ix.ridx < ix.lidx || ix.bidx < ix.tidx ==> boxes == [])
            && (forall i, j :: 0 <= i < Count(ix.lidx, ix.ridx) && 0 <= j < Count(ix.tidx, ix.bidx) ==>
                 var k := Pos(i, j, Count(ix.tidx, ix.bidx));
                 0 <= k < |boxes| && boxes[k] == TileBox(p, ix.lidx + i, ix.tidx + j))
  {
    var ix := Indices(p, l, b, r, t);
    var tiles := Columns(ix.lidx, ix.ridx, ix.tidx, ix.bidx);
    TileBoxes(p, tiles)
  }

  /** One box per tile, in the same order. */
  function TileBoxes(p: LatProjection, tiles: seq<Tile>): (r: seq<Box>)
    ensures |r| == |tiles|
    ensures forall k :: 0 <= k < |tiles| ==> r[k] == TileBox(p, tiles[k].0, tiles[k].1)
  {
    seq(|tiles|, k requires 0 <= k < |tiles| => TileBox(p, tiles[k].0, tiles[k].1))
  }

  /** Different tiles of the rectangle get different positions. */
  lemma PosInjective(i1: int, j1: int, i2: int, j2: int, h: int)
    requires 0 <= j1 < h && 0 <= j2 < h && (i1, j1) != (i2, j2)
    ensures Pos(i1, j1, h) != Pos(i2, j2, h)
  {
    if i1 < i2 {
      PosGap(i1, j1, i2, j2, h);
    } else if i2 < i1 {
      PosGap(i2, j2, i1, j1, h);
    }
  }

  lemma PosGap(i1: int, j1: int, i2: int, j2: int, h: int)
    requires 0 <= j1 < h && 0 <= j2 < h && i1 < i2
    ensures Pos(i1, j1, h) < Pos(i2, j2, h)
  {
    var d := i2 - i1;
    assert i2 * h == i1 * h + d * h;
    assert d * h == h + (d - 1) * h;
    assert (d - 1) * h >= 0;
  }

  /** Going from a column to its west edge and back gives the column. */
  lemma LongitudeRoundTrip(x: int)
    ensures Long2Tile(Tile2Long(x)) == x
  {
    assert (Tile2Long(x) + 180.0) / 360.0 * TilesPerAxis == x as real;
  }

  /** A view whose west and east edges are exactly the edges of column `x`
      covers two columns: the east edge already lies in column `x + 1`. */
  lemma TileWideViewSpansTwoColumns(p: LatProjection, x: int, b: real, t: real)
    ensures var ix := Indices(p, Tile2Long(x), b, Tile2Long(x + 1), t);
            ix.lidx == x && ix.ridx == x + 1 && Count(ix.lidx, ix.ridx) == 2
  {
    LongitudeRoundTrip(x);
    LongitudeRoundTrip(x + 1);
  }

  /** Rounding keeps two values at least one unit apart in order. */
  lemma MathRoundGap(a: real, b: real)
    requires a + 1.0 <= b
    ensures MathRound(a) < MathRound(b)
  {
  }

  /** Rounded west edges of different columns are different. */
  lemma {:induction false} WestEdgesDistinct(x1: int, x2: int)
    requires x1 < x2
    ensures Round6(Tile2Long(x1)) < Round6(Tile2Long(x2))
  {
    var a, b := Tile2Long(x1) * 1000000.0, Tile2Long(x2) * 1000000.0;
    assert b - a == (x2 - x1) as real * 360000000.0 / TilesPerAxis;
    assert (x2 - x1) as real >= 1.0;
    MathRoundGap(a, b);
  }

  /** The west edge of a tile box is its column's rounded west edge, and its
      north edge is the row's; when the projection puts row `y` north of row
      `y + 1` after rounding, that north edge is `top`. */
  lemma TileBoxCorners(p: LatProjection, x: int, y: int)
    ensures TileBox(p, x, y).west == Round6(Tile2Long(x))
    ensures TileBox(p, x, y).north == RowNorth(p, y)
    ensures Round6(p.tile2lat(y + 1)) <= Round6(p.tile2lat(y)) ==> TileBox(p, x, y).north == Round6(p.tile2lat(y))
  {
    WestEdgesDistinct(x, x + 1);
  }

  /** Rounded north edges of the rows `[tidx..bidx]` are pairwise different;
      with the trigonometric projection this is a fact about floating point
      that the model takes as a hypothesis. */
  ghost predicate NorthEdgesDistinct(p: LatProjection, tidx: int, bidx: int) {
    forall y1, y2 :: tidx <= y1 < y2 <= bidx ==> RowNorth(p, y1) != RowNorth(p, y2)
  }

  /** The request ledger key of a box: its `(west, north)` corner. */
  function Key(b: Box): (real, real) {
    (b.west, b.north)
  }

  /** Two different tiles of the rectangle get different ledger keys: their
      columns have different rounded west edges, or their rows have different
      north edges. */
  lemma TileKeysDistinct(p: LatProjection, tidx: int, bidx: int, t1: Tile, t2: Tile)
    requires NorthEdgesDistinct(p, tidx, bidx)
    requires tidx <= t1.1 <= bidx && tidx <= t2.1 <= bidx && t1 != t2
    ensures Key(TileBox(p, t1.0, t1.1)) != Key(TileBox(p, t2.0, t2.1))
  {
    TileBoxCorners(p, t1.0, t1.1);
    TileBoxCorners(p, t2.0, t2.1);
    if t1.0 < t2.0 {
      WestEdgesDistinct(t1.0, t2.0);
    } else if t2.0 < t1.0 {
      WestEdgesDistinct(t2.0, t1.0);
    }
  }

  /** No two boxes of one `_view2BBoxes` result share a ledger key, provided
      the rounded north edges of its rows differ. */
  lemma EnumerationKeysDistinct(p: LatProjection, l: real, b: real, r: real, t: real)
    requires var ix := Indices(p, l, b, r, t); NorthEdgesDistinct(p, ix.tidx, ix.bidx)
    ensures var boxes := View2BBoxes(p, l, b, r, t);
            forall i, j :: 0 <= i < j < |boxes| ==> Key(boxes[i]) != Key(boxes[j])
  {
    var ix := Indices(p, l, b, r, t);
    var tiles := Columns(ix.lidx, ix.ridx, ix.tidx, ix.bidx);
    var boxes := View2BBoxes(p, l, b, r, t);
    assert boxes == TileBoxes(p, tiles);
    ColumnsTiles(ix.lidx, ix.ridx, ix.tidx, ix.bidx);
    forall i, j | 0 <= i < j < |boxes| ensures Key(boxes[i]) != Key(boxes[j]) {
      TileKeysDistinct(p, ix.tidx, ix.bidx, tiles[i], tiles[j]);
    }
  }
}

=== FILE: Wrappers.dfy ===
/** Optional values and the outcomes of operations that can throw, shared by the model. */
module Wrappers {

  /** A value that may be missing: `None` stands for JavaScript's `undefined`. */
  datatype Option<+T> = None | Some(value: T)

  /** The outcome of an operation that can throw. */
  datatype Result<+R, +E> = Success(value: R) | Failure(error: E)
}
